=== FILE: README.md ===
# LinkShortener: link issuance, quota and revocation in Dafny

This project models the core of the Django LinkShortener application. Anonymous
requesters are identified only by their network address. They shorten
destination URLs into ten-letter slugs, follow slugs to their destinations, and
delete their own links. Each client may own at most five links, and a banned
client may not shorten.

The model is a functional state machine over one immutable `Store`:

- `clients`: the `Client` table, keyed by `client_address`. Each row has an id,
  `urls_count` and `is_banned`.
- `links`: the `Link` table, keyed by `url_output` (the slug). Each row has an
  id, `url_input` (the destination) and the owner's address, which stands for
  the foreign key.
- the next value of each table's id sequence.

Every view is a pure function from a store and the request's inputs to an
outcome and a new store:

- `index_views.dfy` (`IndexViews`) covers the HTML views:
  - `IndexView.post` is `Issue`, with the bounded slug-retry loop `SlugSearch`.
  - `RedirectView.get` is `Resolve`, with the `http://` prefixing `Normalize`
    and Django's scheme check `RedirectFor`.
  - `RedirectView.post` is `Revoke`.
- `api_views.dfy` (`ApiViews`) covers the REST view set `LinkViewSet`:
  `List`, `Retrieve`, `Create` and `Destroy`.
- `models.dfy` (`Models`) holds the rest:
  - the two tables with their field constraints, defaults and cascade;
  - the `alphabetic` validator together with the field cleaning
    (`CleanUrlInput`);
  - both `__str__` formats;
  - the store invariant `Valid`. It says every link has an existing owner, a
    ten-letter slug and a validated destination. Every `urls_count` equals the
    number of links its client owns, between 0 and 5. Ids are distinct and
    below their sequence's next value.
- `text.dfy` (`Text`) provides Python's `str.strip()` and the decimal rendering
  used by `__str__`.
- `scenarios.dfy` (`Scenarios`) restates the repository's test scenarios for
  every store they fit. Examples are seven posts from one address, the REST
  create and destroy sequences, and the form and redirect examples.

The external helpers are parameters:

- The requester address stands for `get_client_ip`.
- The slug generator `random_sequence(10)` is a sequence of candidate slugs.
  For the HTML view this is the successive results of the calls. For the REST
  create it is the one result.
- Each candidate is ten ASCII letters, as the repository's utility test
  asserts.

The model follows what the code does, also where the repository's own
comments and settings suggest otherwise:

- Retry count: the comment at ShortenerIndex/views.py:62 speaks of ten tries,
  but the retry loop examines up to twelve generated slugs.
  The attempt counter is tested only after a fresh slug is drawn, and the loop
  gives up once the counter passes 10. The slug drawn just before giving up is
  never examined.
- Order of checks: form validation and the slug search come before the client
  lookup. An invalid form or an exhausted search therefore changes nothing,
  even for a banned client.
- New clients: a new address gets a client with the column default
  `urls_count = 1`. The count is not then incremented, so it counts the one
  link. Such a client is never checked for ban or quota.
- The redirect test is `startswith("http")`: any destination starting with
  those four letters is handed to `HttpResponseRedirect` as it is. Django then
  refuses a target whose scheme, as `urllib.parse` reads it, is not `http`,
  `https` or `ftp`, and answers 400. So a validated destination such as
  `httpx:y` is stored but never redirected to. `urls.dfy` (`Urls`) models
  that scheme check.
- Unknown slugs in the HTML views: `RedirectView.get` and `RedirectView.post`
  on a slug no link has raise an exception (status 500). They do not answer 404.
- The REST `create` never creates a client. `Client.objects.get` raises for an
  unknown address, so its create-if-missing branch is unreachable.
- The REST `create` checks the quota but not the ban flag.
- The REST `create` does not retry a colliding slug. The serializer's uniqueness
  check on `url_output` answers 400.
- The REST `list` and `destroy` filter by the requester's address. Another
  client's link is answered with 404.
- The REST `list` is not paginated. LinkShortener/settings.py:178-181 sets
  `PAGE_SIZE: 5`, but a plain `ViewSet` does not paginate.
  `ListSize` shows that on a valid store a listing never holds more than five
  links anyway.

## Model

| member | source | states |
|---|---|---|
| Models.CleanUrlInput | ShortenerIndex/models.py:20-25 | A missing field is refused. Otherwise the input is accepted exactly when its stripped form is non-blank, at most 255 characters, and made only of ASCII letters, `:`, `/` and `.`. The stored value is the stripped form. |
| Models.DestinationAcceptedIff | ShortenerIndex/models.py:20-25 | A string is kept unchanged by the cleaning exactly when it is a valid destination. |
| Models.DisallowedCharacterRefused | ShortenerIndex/models.py:20-22 | Any character outside `[a-zA-Z:/.]` that survives stripping makes the input refused. |
| Models.CreateClient | ShortenerIndex/models.py:10-12 | A new client exists exactly when the address fits the 15-character column; space-padded over-long addresses are treated as not fitting. It gets count 1, no ban and the next client id. No other client, no link and no link id changes. |
| Models.AdjustCount | ShortenerIndex/views.py:88-89 | Only the named client's `urls_count` moves, by `delta`. Its id and ban flag, every other client and all links stay as they were. An unknown address changes nothing. |
| Models.SetBanned | ShortenerIndex/models.py:12 | Only the named client's ban flag changes. Counts, ids and links are kept. |
| Models.DeleteClient | ShortenerIndex/models.py:24 | Deleting a client removes exactly the links it owns and keeps every other link and client unchanged. |
| Models.DeleteClientRemovesOwned | ShortenerIndex/models.py:24 | The cascade removes as many links as the client owns, which is its count on a consistent store. |
| Models.DeleteClientKeepsAccounting | ShortenerIndex/models.py:24 | After the cascade every remaining link still has an owner, and every remaining count equals the number of owned links. |
| Models.DeleteClientPreservesValid | ShortenerIndex/models.py:24 | The cascade keeps the store invariant. |
| Models.InsertLink | ShortenerIndex/views.py:91-93 | Saving a link adds exactly one link under a previously unused slug, with the given destination and owner and the next link id. Every other link and all clients are unchanged. |
| Models.RemoveLink | ShortenerIndex/views.py:133 | Deleting a link removes exactly that slug and keeps every other link and all clients. |
| Models.ClientLabel | ShortenerIndex/models.py:14-15 | The label is "user-" followed by digits, with no leading zero, that read back as the client's id. |
| Models.LinkLabel | ShortenerIndex/models.py:33-34 | The label is the destination, then " (", digits with no leading zero that read back as the link's id, then ")". |
| Models.ClientLabelInjective | ShortenerIndex/models.py:14-15 | Clients with different ids have different labels. |
| Models.LinkLabelInjective | ShortenerIndex/models.py:33-34 | Two links with validated destinations have the same label only when destination and id both agree. |
| Models.OwnedCountInsert | ShortenerIndex/views.py:92-93 | Saving a link under a new slug adds one owned link for its owner and none for anyone else. |
| Models.OwnedCountRemove | ShortenerIndex/views.py:133 | Deleting a link takes one owned link from its owner and none from anyone else. |
| Models.EmptyStoreValid | ShortenerIndex/models.py:9-34 | The empty database satisfies the invariant. |
| Models.UnknownOwnsNothing | ShortenerIndex/models.py:24 | When every link's owner exists, an address with no client owns no link. |
| Models.InsertLinkKeepsRows | ShortenerIndex/models.py:25-26 | A fresh ten-letter slug with a validated destination keeps every row well-formed and every link id distinct. |
| Models.AdjustCountKeepsRows | ShortenerIndex/models.py:10 | A count change that stays within 0..5 keeps every client row well-formed and client ids distinct. |
| Models.CreateClientKeepsRows | ShortenerIndex/models.py:10-12 | A new client whose address fits the column gets a fresh id and keeps the row constraints. |
| Models.ChargedInsertKeepsAccounting | ShortenerIndex/views.py:88-93 | Raising an existing client's count and saving its link keeps every count equal to the number of owned links. |
| Models.ChargedInsertPreservesValid | ShortenerIndex/views.py:83-93 | A client under the quota that is charged and given a fresh, valid link keeps the store valid. |
| Models.NewClientInsertKeepsAccounting | ShortenerIndex/views.py:72-93 | A new client with default count 1 and its first link keep every count equal to the number of owned links. |
| Models.NewClientInsertPreservesValid | ShortenerIndex/views.py:72-93 | Creating a client and its first link keeps the store valid. |
| Models.DischargedRemoveKeepsAccounting | ShortenerIndex/views.py:130-133 | Lowering the owner's count and deleting the link keeps every count equal to the number of owned links. |
| Models.DischargedRemovePreservesValid | ShortenerIndex/views.py:130-133 | The same step keeps the store valid, so a count never goes below zero. |
| Models.SetBannedPreservesValid | ShortenerIndex/models.py:12 | Banning or unbanning keeps the store valid. |
| Text.DecimalRoundTrip | ShortenerIndex/models.py:15 | The decimal rendering of an id parses back to that id. |
| IndexViews.SlugSearch | ShortenerIndex/views.py:60-68 | The loop settles on the first candidate no link has, among the at most twelve it examines. It gives up exactly when all of those are taken. |
| IndexViews.SlugSearchFromStart | ShortenerIndex/views.py:62-68 | From the start, the loop gives up exactly when all twelve examined candidates are taken. A free first candidate is used at once. |
| IndexViews.IssueStatus | ShortenerIndex/views.py:72-93 | Each code is stated as an if-and-only-if. A ban or the quota gives 403. An invalid form, a give-up or a success gives 200. The database refusing a new client's address gives 500. |
| IndexViews.Issue | ShortenerIndex/views.py:59-93 | A refusal changes nothing. A success adds one link, owned by the requester, under the first free candidate, with the cleaned destination and the next link id. A known requester's row changes only in its count, which rises by one, and the client id counter stays. A new requester gets the next client id, count 1 and no ban. No other client changes. |
| IndexViews.IssueOutcomes | ShortenerIndex/views.py:59-86 | The outcome is classified, each case as an if-and-only-if: an invalid form; then a give-up when all examined slugs are taken; then, for a new address, a database refusal only when the address is too long; for a known client, 403 when banned and 403 when at 5. |
| IndexViews.IssueStatusIff | ShortenerIndex/views.py:59-93 | The answer is 403 exactly for a known client that is banned or at 5, once the form is valid and a slug was found. It is 500 exactly for a new address too long for its column, and 200 otherwise. |
| IndexViews.IssuePreservesValid | ShortenerIndex/views.py:59-93 | Every issue keeps the store invariant. |
| IndexViews.IssueKeepsAccounting | ShortenerIndex/views.py:72-93 | Every issue keeps the owners-exist and count-matches part of the invariant on its own. |
| IndexViews.Normalize | ShortenerIndex/views.py:117-119 | The target always starts with "http". It is the destination unchanged exactly when the destination starts with "http", and otherwise `http://` plus the destination. |
| IndexViews.NormalizeIdempotent | ShortenerIndex/views.py:117-119 | Normalising twice is normalising once. |
| IndexViews.ResolveStatus | ShortenerIndex/views.py:113-119 | A redirect is 302, a refused scheme 400 and a crash 500, each exactly. |
| IndexViews.RedirectFor | ShortenerIndex/views.py:117-119 | A stored destination gives a redirect to its normalised form, unless Django refuses the target's scheme, which happens exactly when `DisallowedTarget` holds. A destination not starting with "http" is always redirected to, with `http://` in front. |
| IndexViews.Resolve | ShortenerIndex/views.py:113-119 | Any requester gets the answer for the stored destination exactly when the slug exists. An unknown slug crashes. |
| IndexViews.RedirectRefusedIff | ShortenerIndex/views.py:117-118 | A validated destination is refused with 400 exactly when it starts with "http" and has a ':' whose preceding text has no '/' and is not "http", "https" or "httpS". |
| IndexViews.UnknownSchemeRefused | ShortenerIndex/views.py:117-118 | The accepted destination "httpx:y" is refused with scheme "httpx". |
| IndexViews.HttpsSchemeRedirected | ShortenerIndex/views.py:117-118 | "https:y" is redirected to unchanged. |
| IndexViews.IssueThenResolve | ShortenerIndex/views.py:113-119 | A link just issued resolves as its cleaned destination does: to its normalised form when redirected. |
| Urls.DisallowedDestinationIff | ShortenerIndex/views.py:117-118 | For a validated destination starting with "http", `HttpResponseRedirect` raises exactly when the text before the first ':' has no '/' and is neither "http" nor "https" in any case. |
| Urls.PrefixedTargetAllowed | ShortenerIndex/views.py:119 | A target built as `http://` plus a destination always has scheme "http", so Django accepts it. |
| Urls.UrlScheme | ShortenerIndex/views.py:118-119 | A scheme is found exactly when the text before the first ':' is non-empty, starts with an ASCII letter and holds only scheme characters. The scheme is that text, lower-cased. |
| Urls.ColonIndex | ShortenerIndex/views.py:118-119 | The index is that of the first ':', or the length when there is none. |
| IndexViews.RevokeStatus | ShortenerIndex/views.py:122-136 | Only a revocation redirects (302); a refusal is 403 and a crash 500, each exactly. |
| IndexViews.Revoke | ShortenerIndex/views.py:122-136 | Revocation happens exactly when the link exists and the requester is its owner. Then only that link goes, and the owner's row changes only in its count, which drops by one. Neither id counter moves. 403 is answered exactly when the existing owner is someone else, and changes nothing. |
| IndexViews.RevokePreservesValid | ShortenerIndex/views.py:130-133 | Revoking keeps the store valid, so a count never goes negative. |
| IndexViews.RevokeNeverCrashesOnKnownSlug | ShortenerIndex/views.py:125-136 | On a valid store, a known slug is revoked exactly by its owner, and everyone else gets 403. |
| ApiViews.Status | API/views.py:28-82 | The successes are exactly the 2xx answers: 200 for a listing or a retrieve, 201 for a create and 204 for a delete. 400, 403, 404 and 500 each mark exactly one failure kind. |
| ApiViews.List | API/views.py:32-36 | The listing holds exactly the requester's links, each with its destination. |
| ApiViews.ListSize | API/views.py:32-36 | On a valid store the listing has as many entries as the client's count, so at most 5. An unknown address lists nothing. |
| ApiViews.Retrieve | API/views.py:21-30 | A link is returned exactly when the slug exists and the requester owns it. Otherwise the answer is 404. |
| ApiViews.Create | API/views.py:38-64 | Each answer is stated as an if-and-only-if: 500 for an unknown address; 403 with "5 link limit reached." at count 5 or more; 400 for a refused or missing `url_input` or a taken slug. A refusal changes nothing. 201 adds one owned link with the next link id, and the requester's row changes only in its count, which rises by one. The client id counter stays. |
| ApiViews.CreateIgnoresBan | API/views.py:43-51 | Flipping the ban flag never changes the answer to a REST create. |
| ApiViews.CreatePreservesValid | API/views.py:59-63 | A REST create with a ten-letter slug keeps the store valid. |
| ApiViews.CreateThenRetrieve | API/views.py:60-63 | A created link can be retrieved by its creator, exactly as create returned it. |
| ApiViews.Destroy | API/views.py:66-82 | Deletion happens exactly when the requester owns the link. Then only that link goes, and the requester's row changes only in its count, which drops by one. Neither id counter moves. Every other case answers 404 and changes nothing. |
| ApiViews.DestroyPreservesValid | API/views.py:80-81 | A REST destroy keeps the store valid. |
| ApiViews.CreateThenDestroy | API/views.py:66-82 | Destroying a link right after creating it restores links and clients exactly. |
| Scenarios.IssueStep | ShortenerIndex/views.py:59-93 | One valid post with a free first slug, from a client that is not banned: the requester owns min(n + 1, 5) links. Old links stay, and any new link is the requester's, under the first slug. |
| Scenarios.RepeatedIssueCount | ShortenerIndex/views.py:83-93 | k valid posts from one unbanned address leave it owning min(n + k, 5) links, and the counts stay consistent. |
| Scenarios.RepeatedIssueFrame | ShortenerIndex/views.py:59-93 | Repeated posting sets no ban and keeps every earlier link. It adds only the requester's links, under first candidates. |
| Scenarios.SevenPostsFiveLinks | ShortenerIndex/test/test_views.py:61-74 | Seven posts from one address on an empty database: the seventh gets 403 and exactly five links exist. |
| Scenarios.BannedClientRefused | ShortenerIndex/test/test_views.py:41-59 | A banned client's valid post gets 403 and stores nothing. |
| Scenarios.IssueThenRevokeKnown | ShortenerIndex/test/test_views.py:114-128 | For an existing client, revoking a just-issued link restores links and clients exactly. |
| Scenarios.IssueThenRevokeNew | ShortenerIndex/test/test_views.py:114-128 | For a new address, revoking the just-issued link restores the links. The new client remains with count 0, and other clients are untouched. |
| Scenarios.NormalizeExamples | ShortenerIndex/test/test_views.py:79-112 | "www.youtube.com" becomes "http://www.youtube.com", and "http://reddit.com" is kept. |
| Scenarios.RedirectExamples | ShortenerIndex/test/test_views.py:79-112 | Links with those destinations redirect to those targets. |
| Scenarios.FormAcceptsExamples | ShortenerIndex/test/test_forms.py:8-25 | The four URLs the tests accept are valid destinations. |
| Scenarios.FormRefusesDigitExample | ShortenerIndex/test/test_forms.py:27-41 | The URL with digits is refused. |
| Scenarios.FormRefusesSymbolExample | ShortenerIndex/test/test_forms.py:27-41 | The URL with symbols is refused. |
| Scenarios.FormRefusesNonAsciiExample | ShortenerIndex/test/test_forms.py:33-41 | The URL with Polish letters is refused. |
| Scenarios.LabelExamples | ShortenerIndex/test/test_models.py:26-58 | The first client renders as "user-1", and the first link to www.wp.pl renders as "www.wp.pl (1)". |
| Scenarios.CreateCharges | API/views.py:60-63 | A valid REST create below the quota answers 201, raises the count by one and adds its slug. |
| Scenarios.CreateRefusals | API/views.py:59-64 | A REST create below the quota, with no `url_input` or a refused one, answers 400 and changes nothing. |
| Scenarios.ApiCreateFirstHalf | API/test/test_api_views.py:74-97 | The answers are 201, 400, 400, and one link is charged. |
| Scenarios.ApiCreateSecondHalf | API/test/test_api_views.py:98-102 | From count 3 the answers are 201, 201, then 403 with the limit message, and the count ends at 5. |
| Scenarios.ApiCreateSequence | API/test/test_api_views.py:74-102 | From count 2 the six posts are answered 201, 400, 400, 201, 201, 403, and the count ends at exactly 5. |
| Scenarios.ApiDestroySequence | API/test/test_api_views.py:104-131 | Deleting one's own link gives 204. Another client's link and a missing slug each give 404. Only the requester's count drops by one, and the other client's link survives. |

## Left out

- `random_sequence` and `get_client_ip` (ShortenerIndex/utils/utils.py) are not part of this model. Their results are parameters: a candidate slug sequence and the requester address.
- Template rendering, the context dictionaries, `build_absolute_uri` and `IndexView.get`: these are presentation only. Outcomes are modelled as the view's answer kind and status code.
- `creation_date`, `expiration_date` and `duration` are not modelled. They are timestamps and an unused field, and no operation reads them. The REST link data therefore has no `creation_date`.
- Concurrency and atomicity are not modelled. This covers the `F()` updates against read-modify-write and the database's uniqueness race. Every operation runs alone and in sequence.
- Only string values of `url_input` are modelled. A JSON value of another type is not.
- ApiViews.Create: only a JSON object body is modelled. For a form-encoded body, or a multipart body without files, `request.data` is an immutable `QueryDict`, so the assignment at API/views.py:55 raises. The program then answers 500 where the model answers 201 or 400.
- URL parsing beyond the scheme is not modelled. `urllib.parse` also strips leading control characters and removes tabs and newlines, but a validated destination contains none of these.
- The admin site is left out, apart from setting the ban flag (`SetBanned`) and deleting a client together with its links (`DeleteClient`, the CASCADE of ShortenerIndex/models.py:24). In particular, deleting a link there does not lower the count.
- Ids as counters: the database's sequences are modelled as counters that only a successful insert advances.
- The database error for an address longer than 15 characters is not modelled in detail. PostgreSQL refuses such an insert into `varchar(15)` unless the excess characters are all spaces. The view does not catch the error, and the model keeps only its effect: a server error with nothing stored.
- Models.CreateClient: an address over 15 characters whose excess is all spaces is refused in the model. PostgreSQL would instead truncate it and store a client under the shortened address. The store is keyed by the requester's full address, so it cannot hold a row whose stored address differs from the one that looks it up. With trailing spaces significant in `varchar` comparison, every later post from that address would add yet another row.
- IndexViews.IssueOutcomes: for the space-padded over-long address above, the model answers `ClientNotSaved`, where the program stores the truncated client and its link and answers 200.
- IndexViews.IssueStatusIff: for the same address the model answers 500, where the program answers 200.
- The branches `if not client` (API/views.py:44-47) and `if not queryset` (API/views.py:77-78) are unreachable. The preceding `get` either returns a row or raises, so they have no model.
- Each client is keyed by its address, because the views never create two rows for one address, apart from the space-padded over-long address under `Models.CreateClient` above. Changing a client's address, which only the admin or a test does, is not an operation of the model.
- Unicode normalisation is not modelled. Stripping removes exactly the characters Python's `str.isspace()` accepts.

=== FILE: api_views.dfy ===
/** The REST view set `LinkViewSet` of API/views.py over the same store as
    the HTML views. It differs from them: a create needs an existing client
    (it is never made on the fly), checks the quota but not the ban flag,
    does not retry a colliding slug, and a delete of somebody else's link is
    answered as if the link did not exist. */
module ApiViews {
  import opened Text
  import opened Models

  /** The body of the 403 answer to a create over the quota, under "Fail". */
  const LimitMessage := "5 link limit reached."

  /** A link as `LinkSerializer` shows it; `creation_date` is not modelled. */
  datatype LinkData = LinkData(urlInput: string, urlOutput: Slug)

  datatype ApiResponse =
    | Listed(items: map<Slug, string>)   // url_output -> url_input
    | Retrieved(item: LinkData)
    | Created(item: LinkData)
    | NoContent
    | BadRequest
    | Forbidden(fail: string)
    | NotFound
    | ServerError                         // an uncaught exception

  /** The HTTP status of each answer: the successes are exactly the 2xx
      codes, and every failure kind has its own code. */
  function Status(r: ApiResponse): (code: int)
    ensures 200 <= code < 300 <==> r.Listed? || r.Retrieved? || r.Created? || r.NoContent?
    ensures code == 200 <==> r.Listed? || r.Retrieved?
    ensures code == 201 <==> r.Created?
    ensures code == 204 <==> r == NoContent
    ensures code == 400 <==> r == BadRequest
    ensures code == 403 <==> r.Forbidden?
    ensures code == 404 <==> r == NotFound
    ensures code == 500 <==> r == ServerError
  {
    match r
    case Listed(_) => 200
    case Retrieved(_) => 200
    case Created(_) => 201
    case NoContent => 204
    case BadRequest => 400
    case Forbidden(_) => 403
    case NotFound => 404
    case ServerError => 500
  }

  /** `list`: the links whose owner has the requester's address, and no other. */
  function List(st: Store, requester: Address): (r: ApiResponse)
    ensures r.Listed?
    ensures r.items.Keys == OwnedSlugs(st.links, requester)
    ensures forall s :: s in r.items ==> r.items[s] == st.links[s].urlInput
  {
    Listed(map s | s in st.links && st.links[s].owner == requester :: st.links[s].urlInput)
  }

  /** On a valid store a client's listing has as many entries as its count,
      so it never exceeds the quota and fits on one page of five; an address
      without a client lists nothing. */
  lemma ListSize(st: Store, requester: Address)
    requires Valid(st)
    ensures requester in st.clients ==> |List(st, requester).items| == st.clients[requester].urlsCount <= LinkLimit
    ensures requester !in st.clients ==> List(st, requester).items == map[]
  {
    var items := List(st, requester).items;
    assert items.Keys == OwnedSlugs(st.links, requester);
    assert |items| == |items.Keys|;
    if requester !in st.clients {
      UnknownOwnsNothing(st, requester);
    }
  }

  /** `retrieve`: the link under `slug` if the requester owns it; 404 both
      when there is no such link and when it belongs to someone else. */
  function Retrieve(st: Store, slug: Slug, requester: Address): (r: ApiResponse)
    ensures r.Retrieved? || r == NotFound
    ensures r.Retrieved? <==> slug in st.links && st.links[slug].owner == requester
    ensures r.Retrieved? ==> r.item == LinkData(st.links[slug].urlInput, slug)
  {
    if slug in st.links && st.links[slug].owner == requester then
      Retrieved(LinkData(st.links[slug].urlInput, slug))
    else NotFound
  }

  /** `create` with request field `url_input` (absent when `None`) and
      `slug` the one result of `random_sequence(10)`. The model takes the slug
      as given: the serializer's own trimming and length check of
      `url_output` never fire for a generated ten-letter slug, and
      `CreatePreservesValid` assumes that shape. The client must
      already exist (`Client.objects.get` raises otherwise); a client at the
      quota gets 403; the serializer refuses an invalid `url_input` and,
      through the uniqueness of `url_output`, a slug already in use. */
  function Create(st: Store, urlInput: Option<string>, requester: Address, slug: Slug)
    : (r: (ApiResponse, Store))
    ensures r.0 == ServerError <==> requester !in st.clients
    ensures r.0 == Forbidden(LimitMessage) <==>
      requester in st.clients && st.clients[requester].urlsCount >= LinkLimit
    ensures r.0 == BadRequest <==>
      && requester in st.clients && st.clients[requester].urlsCount < LinkLimit
      && (CleanUrlInput(urlInput).None? || slug in st.links)
    ensures r.0.Created? || r.0 in {ServerError, Forbidden(LimitMessage), BadRequest}
    ensures !r.0.Created? ==> r.1 == st
    ensures r.0.Created? ==>
      && r.0.item == LinkData(CleanUrlInput(urlInput).value, slug)
      && LinkAdded(st, r.1, slug, CleanUrlInput(urlInput).value, requester)
      && r.1.links[slug].id == st.nextLinkId && r.1.nextClientId == st.nextClientId
      && r.1.clients.Keys == st.clients.Keys
      && r.1.clients[requester] == st.clients[requester].(urlsCount := st.clients[requester].urlsCount + 1)
      && (forall a :: a in st.clients && a != requester ==> r.1.clients[a] == st.clients[a])
  {
    if requester !in st.clients then (ServerError, st)
    else if st.clients[requester].urlsCount >= LinkLimit then (Forbidden(LimitMessage), st)
    else
      match CleanUrlInput(urlInput)
      case None => (BadRequest, st)
      case Some(url) =>
        if slug in st.links then (BadRequest, st)
        else (Created(LinkData(url, slug)), InsertLink(AdjustCount(st, requester, 1), slug, url, requester))
  }

  /** The view set's create applies no ban check: a banned client under the
      quota still gets its link. */
  lemma CreateIgnoresBan(st: Store, urlInput: Option<string>, requester: Address, slug: Slug)
    requires requester in st.clients
    ensures Create(st, urlInput, requester, slug).0 ==
            Create(SetBanned(st, requester, !st.clients[requester].isBanned), urlInput, requester, slug).0
  {
  }

  lemma CreatePreservesValid(st: Store, urlInput: Option<string>, requester: Address, slug: Slug)
    requires Valid(st) && WellFormedSlug(slug)
    ensures Valid(Create(st, urlInput, requester, slug).1)
  {
    var r := Create(st, urlInput, requester, slug);
    if r.0.Created? {
      ChargedInsertPreservesValid(st, requester, slug, CleanUrlInput(urlInput).value);
    }
  }

  /** A created link can be retrieved by its creator, as the serializer
      showed it. */
  lemma CreateThenRetrieve(st: Store, urlInput: Option<string>, requester: Address, slug: Slug)
    requires Create(st, urlInput, requester, slug).0.Created?
    ensures var r := Create(st, urlInput, requester, slug);
      Retrieve(r.1, slug, requester) == Retrieved(r.0.item)
  {
  }

  /** `destroy`: the requester's own link under `slug` is deleted and its
      count lowered; a missing link and another client's link both get 404. */
  function Destroy(st: Store, slug: Slug, requester: Address): (r: (ApiResponse, Store))
    ensures r.0 == NoContent || r.0 == NotFound
    ensures r.0 == NoContent <==> slug in st.links && st.links[slug].owner == requester
    ensures r.0 == NotFound ==> r.1 == st
    ensures r.0 == NoContent ==>
      && r.1.links.Keys == st.links.Keys - {slug}
      && (forall s :: s in r.1.links ==> r.1.links[s] == st.links[s])
      && r.1.clients.Keys == st.clients.Keys
      && (requester in st.clients ==>
            r.1.clients[requester] == st.clients[requester].(urlsCount := st.clients[requester].urlsCount - 1))
      && (forall a :: a in st.clients && a != requester ==> r.1.clients[a] == st.clients[a])
      && r.1.nextClientId == st.nextClientId && r.1.nextLinkId == st.nextLinkId
  {
    if slug in st.links && st.links[slug].owner == requester then
      (NoContent, RemoveLink(AdjustCount(st, requester, -1), slug))
    else (NotFound, st)
  }

  lemma DestroyPreservesValid(st: Store, slug: Slug, requester: Address)
    requires Valid(st)
    ensures Valid(Destroy(st, slug, requester).1)
  {
    if slug in st.links && st.links[slug].owner == requester {
      DischargedRemovePreservesValid(st, slug);
    }
  }

  /** Destroying a link right after creating it gives back the same clients
      and links: destroy undoes create. */
  lemma {:induction false} CreateThenDestroy(st: Store, urlInput: Option<string>, requester: Address, slug: Slug)
    requires Create(st, urlInput, requester, slug).0.Created?
    ensures var r := Create(st, urlInput, requester, slug);
      var d := Destroy(r.1, slug, requester);
      d.0 == NoContent && d.1.links == st.links && d.1.clients == st.clients
  {
    var r := Create(st, urlInput, requester, slug);
    var d := Destroy(r.1, slug, requester);
    assert d.1.links.Keys == st.links.Keys;
    assert d.1.clients.Keys == st.clients.Keys;
  }
}

=== FILE: index_views.dfy ===
/** The HTML front end of ShortenerIndex/views.py: `IndexView.post` issues a
    link, `RedirectView.get` resolves one and `RedirectView.post` revokes one.
    The requester address and the output of the slug generator are
    parameters; rendering is reduced to the status code and the outcome. */
module IndexViews {
  import opened Text
  import opened Models
  import opened Urls

  /** The retry loop gives up once its attempt counter exceeds this. */
  const RetryLimit := 10
  /** How many generated slugs the retry loop can examine: the first one and
      one per pass until the counter exceeds `RetryLimit`. */
  const SlugChecks := RetryLimit + 2

  /** The slugs `random_sequence(10)` returns, in the order of the calls:
      ten-letter strings, at least as many as the loop can examine. */
  predicate WellFormedCandidates(candidates: seq<Slug>) {
    && SlugChecks <= |candidates|
    && forall i :: 0 <= i < |candidates| ==> WellFormedSlug(candidates[i])
  }

  /** Every candidate the loop examines is already some link's `url_output`. */
  predicate AllTaken(links: map<Slug, Link>, candidates: seq<Slug>)
    requires SlugChecks <= |candidates|
  {
    forall j :: 0 <= j < SlugChecks ==> candidates[j] in links
  }

  /** The retry loop of `IndexView.post`, from the pass whose attempt counter
      is `attempt`: the index of the candidate it settles on, or `None` when
      it gives up. */
  function SlugSearch(links: map<Slug, Link>, candidates: seq<Slug>, attempt: nat): (k: Option<nat>)
    requires attempt < SlugChecks <= |candidates|
    ensures k.Some? ==>
      && attempt <= k.value < SlugChecks
      && candidates[k.value] !in links
      && forall j :: attempt <= j < k.value ==> candidates[j] in links
    ensures k.None? ==> forall j :: attempt <= j < SlugChecks ==> candidates[j] in links
    decreases SlugChecks - attempt
  {
    if candidates[attempt] !in links then Some(attempt)
    else if attempt > RetryLimit then None
    else SlugSearch(links, candidates, attempt + 1)
  }

  /** The loop from its start gives up exactly when every examined candidate
      is taken, and otherwise picks the first free one. */
  lemma SlugSearchFromStart(links: map<Slug, Link>, candidates: seq<Slug>)
    requires SlugChecks <= |candidates|
    ensures SlugSearch(links, candidates, 0).None? <==> AllTaken(links, candidates)
    ensures candidates[0] !in links ==> SlugSearch(links, candidates, 0) == Some(0)
  {
  }

  // ---------------------------------------------------------------------------
  // IndexView.post

  /** What `IndexView.post` answers. */
  datatype IssueOutcome =
    | InvalidForm          // the form is re-rendered with its errors
    | SlugsExhausted       // "Failed to generate unique short link"
    | Banned               // "You are banned from shortening links!"
    | LimitReached         // "You have reached 5 shortened links limit. ..."
    | ClientNotSaved       // the database refused the new client's address
    | Shortened(slug: Slug)

  function IssueStatus(o: IssueOutcome): (code: int)
    ensures code == 403 <==> o.Banned? || o.LimitReached?
    ensures code == 200 <==> o.InvalidForm? || o.SlugsExhausted? || o.Shortened?
    ensures code == 500 <==> o == ClientNotSaved
  {
    match o
    case Banned => 403
    case LimitReached => 403
    case ClientNotSaved => 500
    case _ => 200
  }

  /** `IndexView.post` with form field `url_input` (absent when `None`), from
      the requester at `requester`, with `candidates` the successive results
      of `random_sequence(10)`. The form is validated first, then a free slug
      is sought, and only then is the client looked up: a new address gets a
      client with the default count and is not checked for ban or quota; an
      existing client is refused when banned or at the limit, and otherwise
      has its count raised. Which outcome arises is `IssueOutcomes`. */
  function Issue(st: Store, urlInput: Option<string>, requester: Address, candidates: seq<Slug>)
    : (r: (IssueOutcome, Store))
    requires WellFormedCandidates(candidates)
    // refusals change nothing
    ensures !r.0.Shortened? ==> r.1 == st
    // a success adds exactly one link, under the first free candidate
    ensures r.0.Shortened? ==> CleanUrlInput(urlInput).Some?
    ensures r.0.Shortened? ==>
      && LinkAdded(st, r.1, r.0.slug, CleanUrlInput(urlInput).value, requester)
      && r.1.links[r.0.slug].id == st.nextLinkId
      && exists k :: 0 <= k < SlugChecks && candidates[k] == r.0.slug
                     && forall j :: 0 <= j < k ==> candidates[j] in st.links
    // and charges the requester one link
    ensures r.0.Shortened? ==>
      && r.1.clients.Keys == st.clients.Keys + {requester}
      && (forall a :: a in st.clients && a != requester ==> r.1.clients[a] == st.clients[a])
      && (requester in st.clients ==>
            && r.1.clients[requester] == st.clients[requester].(urlsCount := st.clients[requester].urlsCount + 1)
            && r.1.nextClientId == st.nextClientId)
      && (requester !in st.clients ==>
            r.1.clients[requester] == Client(st.nextClientId, DefaultUrlsCount, false))
  {
    match CleanUrlInput(urlInput)
    case None => (InvalidForm, st)
    case Some(url) =>
      match SlugSearch(st.links, candidates, 0)
      case None => (SlugsExhausted, st)
      case Some(k) =>
        var slug := candidates[k];
        if requester !in st.clients then
          match CreateClient(st, requester)
          case None => (ClientNotSaved, st)
          case Some(st1) => (Shortened(slug), InsertLink(st1, slug, url, requester))
        else
          var c := st.clients[requester];
          if c.isBanned then (Banned, st)
          else if c.urlsCount >= LinkLimit then (LimitReached, st)
          else (Shortened(slug), InsertLink(AdjustCount(st, requester, 1), slug, url, requester))
  }

  /** Which answer `IndexView.post` gives: an invalid form first; then a
      give-up when all examined candidates are taken; then, for a new
      address, a refusal only when the database cannot store the address;
      for a known client, 403 when banned and 403 when at the quota. A new
      address is never checked for ban or quota. */
  lemma IssueOutcomes(st: Store, urlInput: Option<string>, requester: Address, candidates: seq<Slug>)
    requires WellFormedCandidates(candidates)
    ensures var o := Issue(st, urlInput, requester, candidates).0;
      && (o == InvalidForm <==> CleanUrlInput(urlInput).None?)
      && (o == SlugsExhausted <==> CleanUrlInput(urlInput).Some? && AllTaken(st.links, candidates))
      && (o == ClientNotSaved <==>
            && CleanUrlInput(urlInput).Some? && !AllTaken(st.links, candidates)
            && requester !in st.clients && |requester| > AddressMaxLength)
      && (o == Banned <==>
            && CleanUrlInput(urlInput).Some? && !AllTaken(st.links, candidates)
            && requester in st.clients && st.clients[requester].isBanned)
      && (o == LimitReached <==>
            && CleanUrlInput(urlInput).Some? && !AllTaken(st.links, candidates)
            && requester in st.clients && !st.clients[requester].isBanned
            && st.clients[requester].urlsCount >= LinkLimit)
  {
    SlugSearchFromStart(st.links, candidates);
  }

  /** The status code of `IndexView.post` in terms of the store and inputs:
      403 exactly for a known client that is banned or at the quota, once
      the form is valid and a slug was found; 500 exactly for a new address
      too long for its column; 200 otherwise. */
  lemma IssueStatusIff(st: Store, urlInput: Option<string>, requester: Address, candidates: seq<Slug>)
    requires WellFormedCandidates(candidates)
    ensures var code := IssueStatus(Issue(st, urlInput, requester, candidates).0);
      var reached := CleanUrlInput(urlInput).Some? && !AllTaken(st.links, candidates);
      && (code == 403 <==>
            reached && requester in st.clients
            && (st.clients[requester].isBanned || st.clients[requester].urlsCount >= LinkLimit))
      && (code == 500 <==> reached && requester !in st.clients && |requester| > AddressMaxLength)
      && (code == 200 || code == 403 || code == 500)
  {
    IssueOutcomes(st, urlInput, requester, candidates);
  }

  /** Issuing keeps the store valid: in particular `urls_count` keeps
      counting the client's links and never passes the quota, and the new
      slug is a ten-letter code no other link has. */
  lemma IssuePreservesValid(st: Store, urlInput: Option<string>, requester: Address, candidates: seq<Slug>)
    requires Valid(st) && WellFormedCandidates(candidates)
    ensures Valid(Issue(st, urlInput, requester, candidates).1)
  {
    var url := CleanUrlInput(urlInput);
    var k := SlugSearch(st.links, candidates, 0);
    if url.Some? && k.Some? {
      var slug := candidates[k.value];
      if requester !in st.clients {
        if |requester| <= AddressMaxLength {
          NewClientInsertPreservesValid(st, requester, slug, url.value);
        }
      } else if !st.clients[requester].isBanned && st.clients[requester].urlsCount < LinkLimit {
        ChargedInsertPreservesValid(st, requester, slug, url.value);
      }
    }
  }

  /** Issuing keeps every client's count equal to the number of links it
      owns, and every link's owner in the client table. */
  lemma IssueKeepsAccounting(st: Store, urlInput: Option<string>, requester: Address, candidates: seq<Slug>)
    requires Accounting(st) && WellFormedCandidates(candidates)
    ensures Accounting(Issue(st, urlInput, requester, candidates).1)
  {
    var url := CleanUrlInput(urlInput);
    var k := SlugSearch(st.links, candidates, 0);
    if url.Some? && k.Some? {
      var slug := candidates[k.value];
      if requester !in st.clients {
        if |requester| <= AddressMaxLength {
          NewClientInsertKeepsAccounting(st, requester, slug, url.value);
        }
      } else if !st.clients[requester].isBanned && st.clients[requester].urlsCount < LinkLimit {
        ChargedInsertKeepsAccounting(st, requester, slug, url.value);
      }
    }
  }

  // ---------------------------------------------------------------------------
  // RedirectView.get

  /** The redirect target for a stored destination: unchanged when it starts
      with "http", otherwise with "http://" put in front. */
  function Normalize(destination: string): (target: string)
    ensures StartsWith(target, "http")
    ensures target == destination || target == "http://" + destination
    ensures target == destination <==> StartsWith(destination, "http")
  {
    if StartsWith(destination, "http") then destination else "http://" + destination
  }

  /** Normalising twice is normalising once. */
  lemma NormalizeIdempotent(destination: string)
    ensures Normalize(Normalize(destination)) == Normalize(destination)
  {
  }

  /** What `RedirectView.get` answers. */
  datatype ResolveOutcome =
    | RedirectTo(location: string)   // status 302
    | UnsafeRedirect(scheme: string) // `DisallowedRedirect`, status 400
    | ResolveCrashed                 // no link: `None.url_input` raises, status 500

  function ResolveStatus(o: ResolveOutcome): (code: int)
    ensures code == 302 <==> o.RedirectTo?
    ensures code == 400 <==> o.UnsafeRedirect?
    ensures code == 500 <==> o == ResolveCrashed
  {
    match o
    case RedirectTo(_) => 302
    case UnsafeRedirect(_) => 400
    case ResolveCrashed => 500
  }

  /** The answer for a stored destination: a redirect to its normalised
      form, unless Django refuses that target's scheme. */
  function RedirectFor(destination: string): (r: ResolveOutcome)
    ensures r != ResolveCrashed
    ensures r.RedirectTo? ==> r.location == Normalize(destination)
    ensures !StartsWith(destination, "http") ==> r == RedirectTo("http://" + destination)
    ensures r.UnsafeRedirect? <==> DisallowedTarget(Normalize(destination))
    ensures r.UnsafeRedirect? ==>
      StartsWith(destination, "http") && r.scheme == UrlScheme(destination) && r.scheme !in AllowedSchemes
  {
    var target := Normalize(destination);
    PrefixedTargetAllowed(destination);
    if DisallowedTarget(target) then UnsafeRedirect(UrlScheme(target)) else RedirectTo(target)
  }

  /** `RedirectView.get`: anyone may resolve any slug. */
  function Resolve(st: Store, slug: Slug): (r: ResolveOutcome)
    ensures r == ResolveCrashed <==> slug !in st.links
    ensures slug in st.links ==> r == RedirectFor(st.links[slug].urlInput)
  {
    if slug in st.links then RedirectFor(st.links[slug].urlInput)
    else ResolveCrashed
  }

  /** For a validated destination, the redirect is refused exactly when the
      destination starts with "http" and has a ':' whose preceding text has
      no '/' and is not "http", "https" or "httpS"; every other destination
      is redirected to, prefixed with "http://" when it does not start with
      "http". */
  lemma RedirectRefusedIff(d: string)
    requires ValidDestination(d)
    ensures var i := ColonIndex(d);
      RedirectFor(d).UnsafeRedirect? <==>
        && StartsWith(d, "http") && i < |d|
        && (forall j :: 0 <= j < i ==> d[j] != '/')
        && d[..i] != "http" && d[..i] != "https" && d[..i] != "httpS"
  {
    if StartsWith(d, "http") {
      DisallowedDestinationIff(d);
    }
  }

  /** A destination the form accepts but Django will not redirect to: its
      scheme comes out as "httpx". */
  lemma UnknownSchemeRefused()
    ensures RedirectFor("httpx:y") == UnsafeRedirect("httpx")
  {
    var d := "httpx:y";
    assert ValidDestination(d) && StartsWith(d, "http");
    assert ColonIndex(d) == 5 by { assert d[5] == ':'; }
    RedirectRefusedIff(d);
    assert d[..5] == "httpx";
    var s := UrlScheme(d);
    assert |s| == 5;
    assert s == "httpx";
  }

  /** "https" followed by a colon is redirected to unchanged. */
  lemma HttpsSchemeRedirected()
    ensures RedirectFor("https:y") == RedirectTo("https:y")
  {
    var d := "https:y";
    assert ValidDestination(d) && StartsWith(d, "http");
    assert ColonIndex(d) == 5 by { assert d[5] == ':'; }
    RedirectRefusedIff(d);
    assert d[..5] == "https";
  }

  /** A link just issued resolves as its cleaned destination does. */
  lemma IssueThenResolve(st: Store, urlInput: Option<string>, requester: Address, candidates: seq<Slug>)
    requires WellFormedCandidates(candidates)
    requires Issue(st, urlInput, requester, candidates).0.Shortened?
    ensures var r := Issue(st, urlInput, requester, candidates);
      var d := CleanUrlInput(urlInput).value;
      && Resolve(r.1, r.0.slug) == RedirectFor(d)
      && (Resolve(r.1, r.0.slug).RedirectTo? ==> Resolve(r.1, r.0.slug).location == Normalize(d))
  {
  }

  // ---------------------------------------------------------------------------
  // RedirectView.post

  /** What `RedirectView.post` answers. */
  datatype RevokeOutcome =
    | Revoked          // status 302 back to the index page
    | NotOwner         // status 403
    | RevokeCrashed    // `Link.objects.get` or `Client.objects.get` raised, status 500

  /** Only a revocation redirects; a refusal is 403 and a crash 500. */
  function RevokeStatus(o: RevokeOutcome): (code: int)
    ensures code == 302 <==> o == Revoked
    ensures code == 403 <==> o == NotOwner
    ensures code == 500 <==> o == RevokeCrashed
  {
    match o
    case Revoked => 302
    case NotOwner => 403
    case RevokeCrashed => 500
  }

  /** `RedirectView.post`: the link's owner is looked up first; only a
      requester with the owner's address may delete it, and its count goes
      down by one. */
  function Revoke(st: Store, slug: Slug, requester: Address): (r: (RevokeOutcome, Store))
    ensures r.0 == Revoked <==>
      slug in st.links && st.links[slug].owner == requester && requester in st.clients
    ensures r.0 == NotOwner <==>
      slug in st.links && st.links[slug].owner != requester && st.links[slug].owner in st.clients
    ensures r.0 != Revoked ==> r.1 == st
    ensures r.0 == Revoked ==>
      && r.1.links.Keys == st.links.Keys - {slug}
      && (forall s :: s in r.1.links ==> r.1.links[s] == st.links[s])
      && r.1.clients.Keys == st.clients.Keys
      && r.1.clients[requester] == st.clients[requester].(urlsCount := st.clients[requester].urlsCount - 1)
      && (forall a :: a in st.clients && a != requester ==> r.1.clients[a] == st.clients[a])
      && r.1.nextClientId == st.nextClientId && r.1.nextLinkId == st.nextLinkId
  {
    if slug !in st.links then (RevokeCrashed, st)
    else
      var owner := st.links[slug].owner;
      if owner !in st.clients then (RevokeCrashed, st)
      else if owner == requester then (Revoked, RemoveLink(AdjustCount(st, owner, -1), slug))
      else (NotOwner, st)
  }

  /** Revoking keeps the store valid, so the owner's count stays equal to the
      number of its links and never goes negative. */
  lemma RevokePreservesValid(st: Store, slug: Slug, requester: Address)
    requires Valid(st)
    ensures Valid(Revoke(st, slug, requester).1)
  {
    if slug in st.links && st.links[slug].owner == requester {
      DischargedRemovePreservesValid(st, slug);
    }
  }

  /** On a valid store, a known slug can always be acted on: its owner
      revokes it and everybody else is refused with 403. */
  lemma RevokeNeverCrashesOnKnownSlug(st: Store, slug: Slug, requester: Address)
    requires Valid(st) && slug in st.links
    ensures Revoke(st, slug, requester).0 != RevokeCrashed
    ensures Revoke(st, slug, requester).0 == Revoked <==> st.links[slug].owner == requester
  {
  }
}

=== FILE: models.dfy ===
/** The persistent state of the shortener: the `Client` and `Link` tables of
    ShortenerIndex/models.py, with their field constraints, defaults and
    `__str__` formats, and the invariant every view keeps. */
module Models {
  import opened Text

  datatype Option<T> = None | Some(value: T)

  /** A requester's network address; the only notion of identity. */
  type Address = string
  /** A link's `url_output`, the short code that keys it. */
  type Slug = string

  const AddressMaxLength := 15   // Client.client_address max_length
  const UrlMaxLength := 255      // Link.url_input max_length
  const SlugLength := 10         // length the views ask random_sequence for
  const LinkLimit := 5           // the per-client quota both front ends enforce
  const DefaultUrlsCount := 1    // Client.urls_count default
  const FirstId := 1             // first value of a table's auto-increment key

  /** A `Client` row. Its address is the key it is stored under. */
  datatype Client = Client(id: nat, urlsCount: int, isBanned: bool)

  /** A `Link` row. Its `url_output` is the key it is stored under; `owner` is
      the address of the client its foreign key points at. */
  datatype Link = Link(id: nat, urlInput: string, owner: Address)

  /** Both tables, plus the next value of each table's id sequence. */
  datatype Store = Store(clients: map<Address, Client>, links: map<Slug, Link>,
                         nextClientId: nat, nextLinkId: nat)

  function EmptyStore(): Store {
    Store(map[], map[], FirstId, FirstId)
  }

  // ---------------------------------------------------------------------------
  // Field constraints

  predicate IsAsciiLetter(c: char) {
    'a' <= c <= 'z' || 'A' <= c <= 'Z'
  }

  /** The character class `[a-zA-Z:/.]` of the `alphabetic` validator. */
  predicate AllowedInUrl(c: char) {
    IsAsciiLetter(c) || c == ':' || c == '/' || c == '.'
  }

  predicate AllAllowed(s: string) {
    forall i :: 0 <= i < |s| ==> AllowedInUrl(s[i])
  }

  /** Whether `re.search(r'^[a-zA-Z:/.]*$', s)` finds a match: without
      MULTILINE, `$` matches at the end and also just before a final newline. */
  predicate AlphabeticRegexMatches(s: string) {
    || AllAllowed(s)
    || (|s| > 0 && s[|s| - 1] == '\n' && AllAllowed(s[..|s| - 1]))
  }

  /** What a stored `url_input` looks like once it has passed validation. */
  predicate ValidDestination(d: string) {
    d != [] && |d| <= UrlMaxLength && AllAllowed(d)
  }

  /** What `random_sequence(10)` returns: ten ASCII letters. */
  predicate WellFormedSlug(s: Slug) {
    |s| == SlugLength && forall i :: 0 <= i < |s| ==> IsAsciiLetter(s[i])
  }

  /** Cleaning of the submitted `url_input` field, shared by the HTML form and
      the REST serializer: a missing field is refused, the value is stripped,
      and the stripped value must be non-blank, at most 255 characters long
      and accepted by the `alphabetic` validator. `None` means the input was
      refused. */
  function CleanUrlInput(raw: Option<string>): (r: Option<string>)
    ensures r.Some? <==> raw.Some? && ValidDestination(Strip(raw.value))
    ensures r.Some? ==> r.value == Strip(raw.value) && ValidDestination(r.value)
  {
    match raw
    case None => None
    case Some(s) =>
      var v := Strip(s);
      assert AlphabeticRegexMatches(v) <==> AllAllowed(v);
      if v == [] || |v| > UrlMaxLength || !AlphabeticRegexMatches(v) then None
      else Some(v)
  }

  /** A destination is accepted unchanged exactly when it is non-blank, at
      most 255 characters long and made only of ASCII letters, `:`, `/`, `.`. */
  lemma DestinationAcceptedIff(s: string)
    ensures CleanUrlInput(Some(s)) == Some(s) <==> ValidDestination(s)
  {
    if ValidDestination(s) {
      assert !IsWhitespace(s[0]) && !IsWhitespace(s[|s| - 1]) by {
        assert AllowedInUrl(s[0]) && AllowedInUrl(s[|s| - 1]);
      }
      StripKeepsTrimmed(s);
    }
  }

  /** Any character outside `[a-zA-Z:/.]` that survives stripping (a digit, a
      symbol, a non-ASCII letter) makes the whole input refused. */
  lemma DisallowedCharacterRefused(s: string, i: nat)
    requires i < |Strip(s)| && !AllowedInUrl(Strip(s)[i])
    ensures CleanUrlInput(Some(s)) == None
  {
  }

  // ---------------------------------------------------------------------------
  // Clients

  /** Saving `Client(client_address=address)`: the defaults `urls_count = 1`
      and `is_banned = False`, the next id, and the column's 15-character
      limit, which the database enforces by refusing the insert. An address
      whose excess characters are all spaces is refused here too, although
      PostgreSQL would truncate and store it. */
  function CreateClient(st: Store, address: Address): (r: Option<Store>)
    requires address !in st.clients
    ensures r.Some? <==> |address| <= AddressMaxLength
    ensures r.Some? ==>
      && r.value.clients.Keys == st.clients.Keys + {address}
      && r.value.clients[address].urlsCount == DefaultUrlsCount
      && !r.value.clients[address].isBanned
      && (forall a :: a in st.clients ==> r.value.clients[a] == st.clients[a])
      && r.value.clients[address].id == st.nextClientId < r.value.nextClientId
      && r.value.links == st.links && r.value.nextLinkId == st.nextLinkId
  {
    if |address| > AddressMaxLength then None
    else
      var c := Client(st.nextClientId, DefaultUrlsCount, false);
      Some(st.(clients := st.clients[address := c], nextClientId := st.nextClientId + 1))
  }

  /** Adds `delta` to the `urls_count` of the client at address `a`, if there
      is one; with no such client nothing changes, as with an `UPDATE`
      filtered on the address that matches no row. */
  function AdjustCount(st: Store, a: Address, delta: int): (r: Store)
    ensures r.clients.Keys == st.clients.Keys && r.links == st.links
    ensures a in st.clients ==>
      r.clients[a] == st.clients[a].(urlsCount := st.clients[a].urlsCount + delta)
    ensures forall b :: b in st.clients && b != a ==> r.clients[b] == st.clients[b]
    ensures r.nextClientId == st.nextClientId && r.nextLinkId == st.nextLinkId
  {
    if a in st.clients then
      st.(clients := st.clients[a := st.clients[a].(urlsCount := st.clients[a].urlsCount + delta)])
    else st
  }

  /** Setting the ban flag of a client, as the admin site does. */
  function SetBanned(st: Store, address: Address, banned: bool): (r: Store)
    ensures address in st.clients ==> address in r.clients && r.clients[address].isBanned == banned
    ensures forall a :: a in st.clients ==>
      a in r.clients && r.clients[a].urlsCount == st.clients[a].urlsCount && r.clients[a].id == st.clients[a].id
    ensures forall a :: a in st.clients && a != address ==> r.clients[a] == st.clients[a]
    ensures r.clients.Keys == st.clients.Keys && r.links == st.links
    ensures r.nextClientId == st.nextClientId && r.nextLinkId == st.nextLinkId
  {
    if address in st.clients then
      st.(clients := st.clients[address := st.clients[address].(isBanned := banned)])
    else st
  }

  /** Deleting a client: `on_delete=CASCADE` deletes every link it owns. */
  function DeleteClient(st: Store, address: Address): (r: Store)
    ensures r.clients.Keys == st.clients.Keys - {address}
    ensures forall a :: a in r.clients ==> r.clients[a] == st.clients[a]
    ensures forall s :: s in r.links <==> s in st.links && st.links[s].owner != address
    ensures forall s :: s in r.links ==> r.links[s] == st.links[s]
    ensures r.nextClientId == st.nextClientId && r.nextLinkId == st.nextLinkId
  {
    Store(st.clients - {address},
          map s | s in st.links && st.links[s].owner != address :: st.links[s],
          st.nextClientId, st.nextLinkId)
  }

  // ---------------------------------------------------------------------------
  // Links

  /** `st'` is `st` with one link more, under a slug no link had, with the
      given destination and owner; every other link is as it was. */
  ghost predicate LinkAdded(st: Store, st': Store, slug: Slug, url: string, owner: Address) {
    && slug !in st.links
    && st'.links.Keys == st.links.Keys + {slug}
    && (forall s :: s in st.links ==> st'.links[s] == st.links[s])
    && st'.links[slug].urlInput == url && st'.links[slug].owner == owner
  }

  /** Saving a new `Link` row under `slug`, with the next link id. */
  function InsertLink(st: Store, slug: Slug, url: string, owner: Address): (r: Store)
    requires slug !in st.links
    ensures LinkAdded(st, r, slug, url, owner)
    ensures r.links[slug].id == st.nextLinkId < r.nextLinkId
    ensures r.clients == st.clients && r.nextClientId == st.nextClientId
  {
    st.(links := st.links[slug := Link(st.nextLinkId, url, owner)], nextLinkId := st.nextLinkId + 1)
  }

  /** Deleting the link stored under `slug`. */
  function RemoveLink(st: Store, slug: Slug): (r: Store)
    ensures r.links.Keys == st.links.Keys - {slug}
    ensures forall s :: s in r.links ==> r.links[s] == st.links[s]
    ensures r.clients == st.clients
    ensures r.nextClientId == st.nextClientId && r.nextLinkId == st.nextLinkId
  {
    st.(links := st.links - {slug})
  }

  // ---------------------------------------------------------------------------
  // String forms

  /** `Client.__str__`: `f"user-{self.id}"`. The label is "user-" followed
      by digits that read back as the id. */
  function ClientLabel(c: Client): (lbl: string)
    ensures |lbl| > 5 && lbl[..5] == "user-"
    ensures AllDigits(lbl[5..]) && ParseDecimal(lbl[5..]) == c.id
    ensures |lbl| > 6 ==> lbl[5] != '0'
  {
    var lbl := "user-" + Decimal(c.id);
    assert lbl[5..] == Decimal(c.id);
    DecimalRoundTrip(c.id);
    lbl
  }

  /** `Link.__str__`: `f"{self.url_input} ({self.id})"`. The destination
      comes first, then " (", digits that read back as the id, and ")". */
  function LinkLabel(l: Link): (lbl: string)
    ensures |lbl| > |l.urlInput| + 3
    ensures lbl[..|l.urlInput|] == l.urlInput && lbl[|l.urlInput|..|l.urlInput| + 2] == " ("
    ensures lbl[|lbl| - 1] == ')'
    ensures AllDigits(lbl[|l.urlInput| + 2..|lbl| - 1])
    ensures ParseDecimal(lbl[|l.urlInput| + 2..|lbl| - 1]) == l.id
    ensures |lbl| > |l.urlInput| + 4 ==> lbl[|l.urlInput| + 2] != '0'
  {
    var lbl := l.urlInput + " (" + Decimal(l.id) + ")";
    assert lbl[|l.urlInput| + 2..|lbl| - 1] == Decimal(l.id);
    DecimalRoundTrip(l.id);
    lbl
  }

  /** Clients with different ids have different labels. */
  lemma ClientLabelInjective(c: Client, d: Client)
    ensures ClientLabel(c) == ClientLabel(d) ==> c.id == d.id
  {
    assert ClientLabel(c)[5..] == Decimal(c.id);
    assert ClientLabel(d)[5..] == Decimal(d.id);
    DecimalInjective(c.id, d.id);
  }

  /** In the label of a link with a validated destination, the first space
      comes right after the destination. */
  lemma LinkLabelFirstSpace(l: Link)
    requires AllAllowed(l.urlInput)
    ensures LinkLabel(l)[|l.urlInput|] == ' '
    ensures forall i :: 0 <= i < |l.urlInput| ==> LinkLabel(l)[i] != ' '
  {
    forall i | 0 <= i < |l.urlInput|
      ensures LinkLabel(l)[i] != ' '
    {
      assert LinkLabel(l)[i] == l.urlInput[i] && AllowedInUrl(l.urlInput[i]);
    }
  }

  /** Two links with validated destinations render alike only when they have
      the same destination and the same id. */
  lemma LinkLabelInjective(a: Link, b: Link)
    requires AllAllowed(a.urlInput) && AllAllowed(b.urlInput)
    requires LinkLabel(a) == LinkLabel(b)
    ensures a.urlInput == b.urlInput && a.id == b.id
  {
    var la, lb := LinkLabel(a), LinkLabel(b);
    var m, n := |a.urlInput|, |b.urlInput|;
    LinkLabelFirstSpace(a);
    LinkLabelFirstSpace(b);
    assert m == n;
    assert a.urlInput == la[..m] == lb[..m] == b.urlInput;
    assert Decimal(a.id) == la[m + 2..|la| - 1] == lb[m + 2..|lb| - 1] == Decimal(b.id);
    DecimalInjective(a.id, b.id);
  }

  // ---------------------------------------------------------------------------
  // Ownership and the store invariant

  /** The slugs of the links whose owner has address `a`. */
  function OwnedSlugs(links: map<Slug, Link>, a: Address): (r: set<Slug>)
    ensures forall s :: s in r <==> s in links && links[s].owner == a
  {
    set s | s in links && links[s].owner == a
  }

  function OwnedCount(links: map<Slug, Link>, a: Address): nat {
    |OwnedSlugs(links, a)|
  }

  /** Inserting a link under a fresh slug adds one owned link for its owner
      and none for anybody else. */
  lemma OwnedCountInsert(links: map<Slug, Link>, s: Slug, l: Link, a: Address)
    requires s !in links
    ensures OwnedCount(links[s := l], a) == OwnedCount(links, a) + (if l.owner == a then 1 else 0)
  {
    if l.owner == a {
      assert OwnedSlugs(links[s := l], a) == OwnedSlugs(links, a) + {s};
    } else {
      assert OwnedSlugs(links[s := l], a) == OwnedSlugs(links, a);
    }
  }

  /** Removing a link takes one owned link away from its owner only. */
  lemma OwnedCountRemove(links: map<Slug, Link>, s: Slug, a: Address)
    requires s in links
    ensures OwnedCount(links - {s}, a) == OwnedCount(links, a) - (if links[s].owner == a then 1 else 0)
  {
    if links[s].owner == a {
      assert OwnedSlugs(links, a) == OwnedSlugs(links - {s}, a) + {s};
    } else {
      assert OwnedSlugs(links - {s}, a) == OwnedSlugs(links, a);
    }
  }

  predicate OwnersExist(st: Store) {
    forall s :: s in st.links ==> st.links[s].owner in st.clients
  }

  predicate LinksWellFormed(st: Store) {
    forall s :: s in st.links ==>
      && WellFormedSlug(s)
      && ValidDestination(st.links[s].urlInput)
      && FirstId <= st.links[s].id < st.nextLinkId
  }

  predicate ClientsWellFormed(st: Store) {
    forall a :: a in st.clients ==>
      && |a| <= AddressMaxLength
      && FirstId <= st.clients[a].id < st.nextClientId
      && 0 <= st.clients[a].urlsCount <= LinkLimit
  }

  /** `urls_count` is the number of links the client owns. */
  predicate CountsMatch(st: Store) {
    forall a :: a in st.clients ==> st.clients[a].urlsCount == OwnedCount(st.links, a)
  }

  /** The bookkeeping part of the invariant: every link's owner exists and
      every count equals the number of owned links. */
  predicate Accounting(st: Store) {
    OwnersExist(st) && CountsMatch(st)
  }

  predicate IdsDistinct(st: Store) {
    && (forall a, b :: a in st.clients && b in st.clients && a != b ==>
          st.clients[a].id != st.clients[b].id)
    && (forall s, t :: s in st.links && t in st.links && s != t ==>
          st.links[s].id != st.links[t].id)
  }

  /** The row constraints without the bookkeeping: every link and client
      row is well-formed, ids are distinct and the sequences have started. */
  predicate RowsWellFormed(st: Store) {
    && FirstId <= st.nextClientId && FirstId <= st.nextLinkId
    && LinksWellFormed(st) && ClientsWellFormed(st) && IdsDistinct(st)
  }

  /** The invariant of the store under every view: every link has an existing
      owner, a ten-letter slug and a validated destination; every client
      address fits its column; each client's count equals the number of links
      it owns and is within the quota; ids are distinct and below the
      sequences' next values. */
  predicate Valid(st: Store) {
    RowsWellFormed(st) && Accounting(st)
  }

  lemma EmptyStoreValid()
    ensures Valid(EmptyStore())
  {
  }

  /** An address without a client row owns no link. */
  lemma UnknownOwnsNothing(st: Store, a: Address)
    requires OwnersExist(st) && a !in st.clients
    ensures OwnedSlugs(st.links, a) == {}
  {
  }

  /** Taking away a subset takes away its size. */
  lemma SubsetDifferenceSize<T>(a: set<T>, b: set<T>)
    requires b <= a
    ensures |a - b| == |a| - |b|
  {
    assert a == (a - b) + b;
  }

  /** Cascading deletion removes exactly the links the client owns, so on a
      store whose counts match, as many as its count said. */
  lemma DeleteClientRemovesOwned(st: Store, address: Address)
    ensures |DeleteClient(st, address).links| == |st.links| - OwnedCount(st.links, address)
    ensures CountsMatch(st) && address in st.clients ==>
      |DeleteClient(st, address).links| == |st.links| - st.clients[address].urlsCount
  {
    var kept := DeleteClient(st, address).links.Keys;
    var gone := OwnedSlugs(st.links, address);
    assert kept == st.links.Keys - gone;
    SubsetDifferenceSize(st.links.Keys, gone);
  }

  /** Cascading deletion keeps every remaining link's owner in the table
      and every remaining count equal to the number of owned links. */
  lemma DeleteClientKeepsAccounting(st: Store, address: Address)
    requires Accounting(st)
    ensures Accounting(DeleteClient(st, address))
  {
    var r := DeleteClient(st, address);
    forall a | a in r.clients
      ensures r.clients[a].urlsCount == OwnedCount(r.links, a)
    {
      assert OwnedSlugs(r.links, a) == OwnedSlugs(st.links, a);
    }
  }

  /** Cascading deletion keeps the store valid. */
  lemma DeleteClientPreservesValid(st: Store, address: Address)
    requires Valid(st)
    ensures Valid(DeleteClient(st, address))
  {
    var r := DeleteClient(st, address);
    DeleteClientKeepsAccounting(st, address);
    assert IdsDistinct(r);
  }

  /** Saving a link under a fresh ten-letter slug with a validated
      destination keeps the row constraints: it gets the next id, above
      every id in use. */
  lemma InsertLinkKeepsRows(st: Store, slug: Slug, url: string, owner: Address)
    requires RowsWellFormed(st)
    requires slug !in st.links && WellFormedSlug(slug) && ValidDestination(url)
    ensures RowsWellFormed(InsertLink(st, slug, url, owner))
  {
    var r := InsertLink(st, slug, url, owner);
    forall s | s in r.links
      ensures WellFormedSlug(s) && ValidDestination(r.links[s].urlInput)
      ensures FirstId <= r.links[s].id < r.nextLinkId
    {
      if s != slug {
        assert r.links[s] == st.links[s];
      }
    }
    forall s, t | s in r.links && t in r.links && s != t
      ensures r.links[s].id != r.links[t].id
    {
      if s != slug && t != slug {
        assert r.links[s] == st.links[s] && r.links[t] == st.links[t];
      }
    }
  }

  /** Changing a client's count keeps the row constraints as long as the
      new count stays between zero and the quota. */
  lemma AdjustCountKeepsRows(st: Store, a: Address, delta: int)
    requires RowsWellFormed(st)
    requires a in st.clients ==> 0 <= st.clients[a].urlsCount + delta <= LinkLimit
    ensures RowsWellFormed(AdjustCount(st, a, delta))
  {
    var r := AdjustCount(st, a, delta);
    forall b | b in r.clients
      ensures |b| <= AddressMaxLength && FirstId <= r.clients[b].id < r.nextClientId
      ensures 0 <= r.clients[b].urlsCount <= LinkLimit
    {
      if b != a {
        assert r.clients[b] == st.clients[b];
      }
    }
    forall b, c | b in r.clients && c in r.clients && b != c
      ensures r.clients[b].id != r.clients[c].id
    {
      assert r.clients[b].id == st.clients[b].id && r.clients[c].id == st.clients[c].id;
    }
  }

  /** Saving a client for a new address that fits the column keeps the row
      constraints: it gets the next id, above every id in use. */
  lemma CreateClientKeepsRows(st: Store, a: Address)
    requires RowsWellFormed(st) && a !in st.clients && |a| <= AddressMaxLength
    ensures RowsWellFormed(CreateClient(st, a).value)
  {
    var r := CreateClient(st, a).value;
    forall b | b in r.clients
      ensures |b| <= AddressMaxLength && FirstId <= r.clients[b].id < r.nextClientId
      ensures 0 <= r.clients[b].urlsCount <= LinkLimit
    {
      if b != a {
        assert r.clients[b] == st.clients[b];
      }
    }
    forall b, c | b in r.clients && c in r.clients && b != c
      ensures r.clients[b].id != r.clients[c].id
    {
      if b != a && c != a {
        assert r.clients[b] == st.clients[b] && r.clients[c] == st.clients[c];
      }
    }
  }

  /** Raising an existing client's count and saving a link it owns keeps
      every link's owner in the table and every count equal to the number
      of owned links. */
  lemma ChargedInsertKeepsAccounting(st: Store, a: Address, slug: Slug, url: string)
    requires Accounting(st) && a in st.clients && slug !in st.links
    ensures Accounting(InsertLink(AdjustCount(st, a, 1), slug, url, a))
  {
    var r := InsertLink(AdjustCount(st, a, 1), slug, url, a);
    assert r.links == st.links[slug := r.links[slug]];
    forall b | b in r.clients
      ensures r.clients[b].urlsCount == OwnedCount(r.links, b)
    {
      OwnedCountInsert(st.links, slug, r.links[slug], b);
    }
  }

  /** Raising an existing client's count and saving a link it owns keeps the
      store valid, provided the client was under quota and the slug free. */
  lemma ChargedInsertPreservesValid(st: Store, a: Address, slug: Slug, url: string)
    requires Valid(st) && a in st.clients && st.clients[a].urlsCount < LinkLimit
    requires slug !in st.links && WellFormedSlug(slug) && ValidDestination(url)
    ensures Valid(InsertLink(AdjustCount(st, a, 1), slug, url, a))
  {
    ChargedInsertKeepsAccounting(st, a, slug, url);
    AdjustCountKeepsRows(st, a, 1);
    InsertLinkKeepsRows(AdjustCount(st, a, 1), slug, url, a);
  }

  /** Creating a client for a new address and saving a link it owns keeps
      every link's owner in the table and every count equal to the number
      of owned links: the default count 1 is the one link. */
  lemma NewClientInsertKeepsAccounting(st: Store, a: Address, slug: Slug, url: string)
    requires Accounting(st) && a !in st.clients && |a| <= AddressMaxLength
    requires slug !in st.links
    ensures Accounting(InsertLink(CreateClient(st, a).value, slug, url, a))
  {
    var r := InsertLink(CreateClient(st, a).value, slug, url, a);
    UnknownOwnsNothing(st, a);
    assert r.links == st.links[slug := r.links[slug]];
    forall b | b in r.clients
      ensures r.clients[b].urlsCount == OwnedCount(r.links, b)
    {
      OwnedCountInsert(st.links, slug, r.links[slug], b);
    }
  }

  /** Creating a client for a new address and saving a link it owns keeps
      the store valid. */
  lemma NewClientInsertPreservesValid(st: Store, a: Address, slug: Slug, url: string)
    requires Valid(st) && a !in st.clients && |a| <= AddressMaxLength
    requires slug !in st.links && WellFormedSlug(slug) && ValidDestination(url)
    ensures Valid(InsertLink(CreateClient(st, a).value, slug, url, a))
  {
    NewClientInsertKeepsAccounting(st, a, slug, url);
    CreateClientKeepsRows(st, a);
    InsertLinkKeepsRows(CreateClient(st, a).value, slug, url, a);
  }

  /** Lowering the owner's count and deleting one of its links keeps every
      count equal to the number of owned links. */
  lemma DischargedRemoveKeepsAccounting(st: Store, slug: Slug)
    requires Accounting(st) && slug in st.links
    ensures Accounting(RemoveLink(AdjustCount(st, st.links[slug].owner, -1), slug))
  {
    var owner := st.links[slug].owner;
    var r := RemoveLink(AdjustCount(st, owner, -1), slug);
    assert r.links == st.links - {slug};
    forall b | b in r.clients
      ensures r.clients[b].urlsCount == OwnedCount(r.links, b)
    {
      OwnedCountRemove(st.links, slug, b);
    }
  }

  /** Lowering the owner's count and deleting one of its links keeps the
      store valid; in particular the count never goes below zero. */
  lemma DischargedRemovePreservesValid(st: Store, slug: Slug)
    requires Valid(st) && slug in st.links
    ensures Valid(RemoveLink(AdjustCount(st, st.links[slug].owner, -1), slug))
  {
    var owner := st.links[slug].owner;
    var r := RemoveLink(AdjustCount(st, owner, -1), slug);
    DischargedRemoveKeepsAccounting(st, slug);
    assert slug in OwnedSlugs(st.links, owner);
    AdjustCountKeepsRows(st, owner, -1);
  }

  lemma SetBannedPreservesValid(st: Store, address: Address, banned: bool)
    requires Valid(st)
    ensures Valid(SetBanned(st, address, banned))
  {
  }
}

=== FILE: scenarios.dfy ===
/** The scenarios the repository's tests walk through, stated for all stores
    and inputs that fit them rather than for one database. */
module Scenarios {
  import opened Text
  import opened Models
  import opened Urls
  import opened IndexViews
  import opened ApiViews

  function Min(a: int, b: int): int {
    if a <= b then a else b
  }

  /** One candidate stream per post. */
  predicate WellFormedStreams(streams: seq<seq<Slug>>) {
    forall i :: 0 <= i < |streams| ==> WellFormedCandidates(streams[i])
  }

  /** `IndexView.post` repeated with the same form and address, one candidate
      stream per post. */
  function IssueAll(st: Store, urlInput: Option<string>, requester: Address, streams: seq<seq<Slug>>): Store
    requires WellFormedStreams(streams)
    decreases |streams|
  {
    if streams == [] then st
    else IssueAll(Issue(st, urlInput, requester, streams[0]).1, urlInput, requester, streams[1..])
  }

  /** The first candidate of every stream is free in `links` and differs
      from the first candidate of every other stream. */
  predicate FreshFirsts(links: map<Slug, Link>, streams: seq<seq<Slug>>)
    requires WellFormedStreams(streams)
  {
    && (forall i :: 0 <= i < |streams| ==> streams[i][0] !in links)
    && (forall i, j :: 0 <= i < j < |streams| ==> streams[i][0] != streams[j][0])
  }

  /** The first candidate of each stream. */
  function Firsts(streams: seq<seq<Slug>>): set<Slug>
    requires WellFormedStreams(streams)
  {
    set i | 0 <= i < |streams| :: streams[i][0]
  }

  /** One post from an unbanned address whose first candidate is free: one
      more owned link unless the quota is already reached, in which case
      nothing changes. */
  lemma IssueStep(st: Store, urlInput: Option<string>, requester: Address, cs: seq<Slug>)
    requires Accounting(st) && CleanUrlInput(urlInput).Some? && |requester| <= AddressMaxLength
    requires requester in st.clients ==>
      !st.clients[requester].isBanned && st.clients[requester].urlsCount <= LinkLimit
    requires WellFormedCandidates(cs) && cs[0] !in st.links
    ensures var r := Issue(st, urlInput, requester, cs).1;
      var n := OwnedCount(st.links, requester);
      && Accounting(r)
      && OwnedCount(r.links, requester) == Min(n + 1, LinkLimit)
      && (forall s :: s in st.links ==> s in r.links && r.links[s] == st.links[s])
      && (forall s :: s in r.links && s !in st.links ==> r.links[s].owner == requester)
      && (requester in r.clients ==>
            !r.clients[requester].isBanned && r.clients[requester].urlsCount <= LinkLimit)
      && r.links.Keys <= st.links.Keys + {cs[0]}
  {
    var r := Issue(st, urlInput, requester, cs);
    SlugSearchFromStart(st.links, cs);
    IssueKeepsAccounting(st, urlInput, requester, cs);
    if r.0.Shortened? {
      if requester !in st.clients {
        UnknownOwnsNothing(st, requester);
      }
      assert r.0.slug == cs[0];
      assert r.1.links == st.links[cs[0] := r.1.links[cs[0]]];
      OwnedCountInsert(st.links, cs[0], r.1.links[cs[0]], requester);
    } else {
      IssueOutcomes(st, urlInput, requester, cs);
      assert r.0 == LimitReached;
      assert OwnedCount(st.links, requester) == st.clients[requester].urlsCount == LinkLimit;
    }
  }

  /** Posting a valid link n times from one unbanned address leaves it owning
      its earlier links plus n more, capped at the quota of five. */
  lemma {:induction false} RepeatedIssueCount(st: Store, urlInput: Option<string>, requester: Address,
                                              streams: seq<seq<Slug>>)
    requires Accounting(st) && CleanUrlInput(urlInput).Some? && |requester| <= AddressMaxLength
    requires requester in st.clients ==>
      !st.clients[requester].isBanned && st.clients[requester].urlsCount <= LinkLimit
    requires WellFormedStreams(streams) && FreshFirsts(st.links, streams)
    ensures var f := IssueAll(st, urlInput, requester, streams);
      var n := OwnedCount(st.links, requester);
      && Accounting(f)
      && OwnedCount(f.links, requester) == Min(n + |streams|, LinkLimit)
    decreases |streams|
  {
    if streams != [] {
      var r := Issue(st, urlInput, requester, streams[0]).1;
      IssueStep(st, urlInput, requester, streams[0]);
      FirstsSplit(st.links, r.links, streams);
      RepeatedIssueCount(r, urlInput, requester, streams[1..]);
    }
  }

  /** Repeated posting sets no ban, keeps every existing link, adds only
      links of the requester and uses only first candidates as slugs. */
  lemma {:induction false} RepeatedIssueFrame(st: Store, urlInput: Option<string>, requester: Address,
                                              streams: seq<seq<Slug>>)
    requires Accounting(st) && CleanUrlInput(urlInput).Some? && |requester| <= AddressMaxLength
    requires requester in st.clients ==>
      !st.clients[requester].isBanned && st.clients[requester].urlsCount <= LinkLimit
    requires WellFormedStreams(streams) && FreshFirsts(st.links, streams)
    ensures var f := IssueAll(st, urlInput, requester, streams);
      && (requester in f.clients ==>
            !f.clients[requester].isBanned && f.clients[requester].urlsCount <= LinkLimit)
      && f.links.Keys <= st.links.Keys + Firsts(streams)
      && (forall s :: s in st.links ==> s in f.links && f.links[s] == st.links[s])
      && (forall s :: s in f.links && s !in st.links ==> f.links[s].owner == requester)
    decreases |streams|
  {
    if streams != [] {
      var r := Issue(st, urlInput, requester, streams[0]).1;
      IssueStep(st, urlInput, requester, streams[0]);
      FirstsSplit(st.links, r.links, streams);
      RepeatedIssueFrame(r, urlInput, requester, streams[1..]);
    }
  }

  /** After the first stream's post, the remaining streams still have fresh
      first candidates, and the firsts split into the head's and the rest's. */
  lemma FirstsSplit(links: map<Slug, Link>, links': map<Slug, Link>, streams: seq<seq<Slug>>)
    requires WellFormedStreams(streams) && streams != []
    requires FreshFirsts(links, streams) && links'.Keys <= links.Keys + {streams[0][0]}
    ensures WellFormedStreams(streams[1..]) && FreshFirsts(links', streams[1..])
    ensures Firsts(streams) == {streams[0][0]} + Firsts(streams[1..])
  {
    var rest := streams[1..];
    assert forall i :: 0 <= i < |rest| ==> rest[i] == streams[i + 1];
    forall t | t in Firsts(streams) ensures t in {streams[0][0]} + Firsts(rest) {
      var i :| 0 <= i < |streams| && streams[i][0] == t;
      if i > 0 { assert rest[i - 1][0] == t; }
    }
  }

  /** When every link has the same owner, that owner's count is the number
      of links. */
  lemma SoleOwnerCount(links: map<Slug, Link>, a: Address)
    requires forall s :: s in links ==> links[s].owner == a
    ensures |links| == OwnedCount(links, a)
  {
    assert links.Keys == OwnedSlugs(links, a);
  }

  /** Seven posts from one new address onto an empty database: the seventh
      is refused with 403 and exactly five links exist. The first six posts
      are given by `six`, the seventh by `last`. */
  lemma SevenPostsFiveLinks(urlInput: Option<string>, requester: Address, six: seq<seq<Slug>>, last: seq<Slug>)
    requires CleanUrlInput(urlInput).Some? && |requester| <= AddressMaxLength
    requires |six| == 6 && WellFormedStreams(six) && FreshFirsts(map[], six)
    requires WellFormedCandidates(last) && last[0] !in Firsts(six)
    ensures var f := IssueAll(EmptyStore(), urlInput, requester, six);
      var r := Issue(f, urlInput, requester, last);
      && r.0 == LimitReached && IssueStatus(r.0) == 403
      && |r.1.links| == 5
  {
    var st := EmptyStore();
    var f := IssueAll(st, urlInput, requester, six);
    RepeatedIssueCount(st, urlInput, requester, six);
    RepeatedIssueFrame(st, urlInput, requester, six);
    SoleOwnerCount(f.links, requester);
    var s :| s in OwnedSlugs(f.links, requester);
    IssueOutcomes(f, urlInput, requester, last);
  }

  /** A banned client posting a valid form, with a free first candidate, is
      refused with 403 and nothing is stored. */
  lemma BannedClientRefused(st: Store, urlInput: Option<string>, requester: Address, cs: seq<Slug>)
    requires WellFormedCandidates(cs) && cs[0] !in st.links && CleanUrlInput(urlInput).Some?
    requires requester in st.clients && st.clients[requester].isBanned
    ensures var r := Issue(st, urlInput, requester, cs);
      r.0 == Banned && IssueStatus(r.0) == 403 && r.1 == st
  {
    IssueOutcomes(st, urlInput, requester, cs);
  }

  /** Revoking a link right after an existing client issued it gives back
      the store's links and clients as they were. */
  lemma {:induction false} IssueThenRevokeKnown(st: Store, urlInput: Option<string>, requester: Address, cs: seq<Slug>)
    requires WellFormedCandidates(cs) && requester in st.clients
    requires Issue(st, urlInput, requester, cs).0.Shortened?
    ensures var r := Issue(st, urlInput, requester, cs);
      var v := Revoke(r.1, r.0.slug, requester);
      v.0 == Revoked && v.1.links == st.links && v.1.clients == st.clients
  {
    var r := Issue(st, urlInput, requester, cs);
    var v := Revoke(r.1, r.0.slug, requester);
    assert v.1.links.Keys == st.links.Keys;
    assert v.1.clients.Keys == st.clients.Keys;
  }

  /** Revoking a link right after a new address issued it gives back the
      links as they were; the client the issue created stays, with a count
      of zero, and every other client is as it was. */
  lemma {:induction false} IssueThenRevokeNew(st: Store, urlInput: Option<string>, requester: Address, cs: seq<Slug>)
    requires WellFormedCandidates(cs) && requester !in st.clients
    requires Issue(st, urlInput, requester, cs).0.Shortened?
    ensures var r := Issue(st, urlInput, requester, cs);
      var v := Revoke(r.1, r.0.slug, requester);
      && v.0 == Revoked && v.1.links == st.links
      && v.1.clients.Keys == st.clients.Keys + {requester}
      && v.1.clients[requester].urlsCount == 0
      && (forall a :: a in st.clients ==> v.1.clients[a] == st.clients[a])
  {
    var r := Issue(st, urlInput, requester, cs);
    var v := Revoke(r.1, r.0.slug, requester);
    assert v.1.links.Keys == st.links.Keys;
  }

  /** The two destinations the redirect tests use: one without a scheme
      gets "http://" in front, one starting with "http" is kept. */
  lemma NormalizeExamples()
    ensures Normalize("www.youtube.com") == "http://www.youtube.com"
    ensures Normalize("http://reddit.com") == "http://reddit.com"
  {
    assert !StartsWith("www.youtube.com", "http") by {
      assert "www.youtube.com"[0] != "http"[0];
    }
    assert StartsWith("http://reddit.com", "http") by {
      assert "http://reddit.com"[..4] == "http";
    }
  }

  /** The redirects the view tests follow, from a store holding both
      destinations. */
  lemma RedirectExamples(st: Store, a: Slug, b: Slug)
    requires a in st.links && st.links[a].urlInput == "www.youtube.com"
    requires b in st.links && st.links[b].urlInput == "http://reddit.com"
    ensures Resolve(st, a) == RedirectTo("http://www.youtube.com")
    ensures Resolve(st, b) == RedirectTo("http://reddit.com")
  {
    NormalizeExamples();
    PrefixedTargetAllowed("reddit.com");
    assert "http://" + "reddit.com" == "http://reddit.com";
  }

  /** The form examples the tests accept are valid destinations, so the
      form keeps each unchanged (`DestinationAcceptedIff`). */
  lemma FormAcceptsExamples()
    ensures ValidDestination("https://www.yahoo.com/")
    ensures ValidDestination("http://www.yahoo.com/")
    ensures ValidDestination("www.yahoo.com")
    ensures ValidDestination("yahoo.com")
  {
  }

  /** The form example the tests refuse for its digits. */
  lemma FormRefusesDigitExample()
    ensures CleanUrlInput(Some("https://www.123213.com/")).None?
  {
    var digit := "https://www.123213.com/";
    StripKeepsTrimmed(digit);
    DisallowedCharacterRefused(digit, 12);
  }

  /** The form example the tests refuse for its symbols. */
  lemma FormRefusesSymbolExample()
    ensures CleanUrlInput(Some("https://www.!@#$!@%@&*.com/")).None?
  {
    var symbol := "https://www.!@#$!@%@&*.com/";
    StripKeepsTrimmed(symbol);
    DisallowedCharacterRefused(symbol, 12);
  }

  /** The form example the tests refuse for its non-ASCII letters. */
  lemma FormRefusesNonAsciiExample()
    ensures CleanUrlInput(Some("https://www.\U{0105}\U{0119}\U{00F3}\U{0142}\U{017A}\U{017C}\U{0107}.com/")).None?
  {
    var polish := "https://www.\U{0105}\U{0119}\U{00F3}\U{0142}\U{017A}\U{017C}\U{0107}.com/";
    StripKeepsTrimmed(polish);
    DisallowedCharacterRefused(polish, 12);
  }

  /** The labels the model tests expect for the first client and link. */
  lemma LabelExamples(owner: Address)
    ensures ClientLabel(Client(FirstId, DefaultUrlsCount, false)) == "user-1"
    ensures LinkLabel(Link(FirstId, "www.wp.pl", owner)) == "www.wp.pl (1)"
  {
  }

  /** A valid REST create under a fresh slug by a client below the quota:
      201, one more count, one more slug, nothing else about the client
      changes. */
  lemma CreateCharges(st: Store, valid: string, requester: Address, slug: Slug)
    requires requester in st.clients && st.clients[requester].urlsCount < LinkLimit
    requires ValidDestination(valid) && slug !in st.links
    ensures var r := Create(st, Some(valid), requester, slug);
      && Status(r.0) == 201 && requester in r.1.clients
      && r.1.clients[requester].urlsCount == st.clients[requester].urlsCount + 1
      && r.1.links.Keys == st.links.Keys + {slug}
  {
    DestinationAcceptedIff(valid);
  }

  /** A REST create below the quota without `url_input`, or with one the
      validator refuses, is answered 400 and changes nothing. */
  lemma CreateRefusals(st: Store, refused: string, requester: Address, a: Slug, b: Slug)
    requires requester in st.clients && st.clients[requester].urlsCount < LinkLimit
    requires CleanUrlInput(Some(refused)).None?
    ensures Create(st, None, requester, a) == (BadRequest, st)
    ensures Create(st, Some(refused), requester, b) == (BadRequest, st)
  {
  }

  /** The first half of the REST create sequence of the tests: a valid
      post, a post without `url_input` and a refused post are answered 201,
      400, 400, and the one new link is charged. */
  lemma ApiCreateFirstHalf(st: Store, requester: Address, valid: string, refused: string, a: Slug, b: Slug, c: Slug)
    requires requester in st.clients && st.clients[requester].urlsCount + 1 < LinkLimit
    requires ValidDestination(valid) && CleanUrlInput(Some(refused)).None?
    requires a !in st.links
    ensures var r1 := Create(st, Some(valid), requester, a);
      var r2 := Create(r1.1, None, requester, b);
      var r3 := Create(r2.1, Some(refused), requester, c);
      && Status(r1.0) == 201 && Status(r2.0) == 400 && Status(r3.0) == 400
      && requester in r3.1.clients
      && r3.1.clients[requester].urlsCount == st.clients[requester].urlsCount + 1
      && r3.1.links.Keys == st.links.Keys + {a}
  {
    var r1 := Create(st, Some(valid), requester, a);
    CreateCharges(st, valid, requester, a);
    CreateRefusals(r1.1, refused, requester, b, c);
  }

  /** The second half: from a count of three, two valid posts are answered
      201 and a third 403 with the limit message; the count ends at 5. */
  lemma ApiCreateSecondHalf(st: Store, requester: Address, valid: string, d: Slug, e: Slug, f: Slug)
    requires requester in st.clients && st.clients[requester].urlsCount == 3
    requires ValidDestination(valid) && d !in st.links && e !in st.links && d != e
    ensures var r4 := Create(st, Some(valid), requester, d);
      var r5 := Create(r4.1, Some(valid), requester, e);
      var r6 := Create(r5.1, Some(valid), requester, f);
      && Status(r4.0) == 201 && Status(r5.0) == 201
      && r6.0 == Forbidden(LimitMessage) && Status(r6.0) == 403
      && requester in r6.1.clients && r6.1.clients[requester].urlsCount == LinkLimit
  {
    var r4 := Create(st, Some(valid), requester, d);
    CreateCharges(st, valid, requester, d);
    CreateCharges(r4.1, valid, requester, e);
  }

  /** The REST create sequence of the tests, for a client that starts at a
      count of two: a valid post (the tests use "www.youtube.com"), a post
      without `url_input`, a post the validator refuses (the tests use
      non-ASCII letters), two more valid posts and a sixth that is over the
      quota. The answers are 201, 400, 400, 201, 201, 403, and the count
      ends at 5. */
  lemma ApiCreateSequence(st: Store, requester: Address, valid: string, refused: string, slugs: seq<Slug>)
    requires requester in st.clients && st.clients[requester].urlsCount == 2
    requires ValidDestination(valid) && CleanUrlInput(Some(refused)).None?
    requires |slugs| == 6 && slugs[0] !in st.links && slugs[3] !in st.links && slugs[4] !in st.links
    requires slugs[0] != slugs[3] && slugs[0] != slugs[4] && slugs[3] != slugs[4]
    ensures var r1 := Create(st, Some(valid), requester, slugs[0]);
      var r2 := Create(r1.1, None, requester, slugs[1]);
      var r3 := Create(r2.1, Some(refused), requester, slugs[2]);
      var r4 := Create(r3.1, Some(valid), requester, slugs[3]);
      var r5 := Create(r4.1, Some(valid), requester, slugs[4]);
      var r6 := Create(r5.1, Some(valid), requester, slugs[5]);
      && Status(r1.0) == 201 && Status(r2.0) == 400 && Status(r3.0) == 400
      && Status(r4.0) == 201 && Status(r5.0) == 201
      && r6.0 == Forbidden(LimitMessage) && Status(r6.0) == 403
      && requester in r6.1.clients && r6.1.clients[requester].urlsCount == 5
  {
    ApiCreateFirstHalf(st, requester, valid, refused, slugs[0], slugs[1], slugs[2]);
    var r1 := Create(st, Some(valid), requester, slugs[0]);
    var r2 := Create(r1.1, None, requester, slugs[1]);
    var r3 := Create(r2.1, Some(refused), requester, slugs[2]);
    ApiCreateSecondHalf(r3.1, requester, valid, slugs[3], slugs[4], slugs[5]);
  }

  /** The REST destroy sequence of the tests: the requester deletes its own
      link (204), then tries another client's link and a missing slug (404
      each). Its count drops by one and the other client is untouched. */
  lemma ApiDestroySequence(st: Store, requester: Address, other: Address, own: Slug, foreign: Slug, missing: Slug)
    requires requester in st.clients && other in st.clients && requester != other
    requires own in st.links && st.links[own].owner == requester
    requires foreign in st.links && st.links[foreign].owner == other
    requires missing !in st.links
    ensures var d1 := Destroy(st, own, requester);
      var d2 := Destroy(d1.1, foreign, requester);
      var d3 := Destroy(d2.1, missing, requester);
      && Status(d1.0) == 204 && Status(d2.0) == 404 && Status(d3.0) == 404
      && d3.1.clients[requester].urlsCount == st.clients[requester].urlsCount - 1
      && d3.1.clients[other] == st.clients[other]
      && foreign in d3.1.links
  {
  }
}

=== FILE: text.dfy ===
/** String helpers the web layer relies on: Python's `str.strip()` (applied by
    both the HTML form field and the REST serializer field before validation)
    and the decimal rendering of integers used by the `__str__` formats. */
module Text {

  /** The characters Python's `str.isspace()` accepts; `str.strip()` with no
      argument removes exactly these from both ends. */
  predicate IsWhitespace(c: char) {
    || c == ' '
    || ('\t' <= c <= '\r')
    || ('\U{001C}' <= c <= '\U{001F}')
    || c == '\U{0085}' || c == '\U{00A0}' || c == '\U{1680}'
    || ('\U{2000}' <= c <= '\U{200A}')
    || c == '\U{2028}' || c == '\U{2029}' || c == '\U{202F}'
    || c == '\U{205F}' || c == '\U{3000}'
  }

  predicate AllWhitespace(s: string) {
    forall i :: 0 <= i < |s| ==> IsWhitespace(s[i])
  }

  predicate StartsWith(s: string, prefix: string) {
    |prefix| <= |s| && s[..|prefix|] == prefix
  }

  /** The end of the run of whitespace in `s` that starts at `b`. */
  function WhitespaceRunEnd(s: string, b: nat): (e: nat)
    requires b <= |s|
    ensures b <= e <= |s|
    ensures forall i :: b <= i < e ==> IsWhitespace(s[i])
    ensures e < |s| ==> !IsWhitespace(s[e])
    decreases |s| - b
  {
    if b < |s| && IsWhitespace(s[b]) then WhitespaceRunEnd(s, b + 1) else b
  }

  /** The start of the run of whitespace in `s` that ends at `e`. */
  function WhitespaceRunStart(s: string, e: nat): (b: nat)
    requires e <= |s|
    ensures b <= e
    ensures forall i :: b <= i < e ==> IsWhitespace(s[i])
    ensures 0 < b ==> !IsWhitespace(s[b - 1])
  {
    if 0 < e && IsWhitespace(s[e - 1]) then WhitespaceRunStart(s, e - 1) else e
  }

  /** Number of whitespace characters at the front of `s`. */
  function LeadingWhitespace(s: string): (n: nat)
    ensures n <= |s|
    ensures AllWhitespace(s[..n])
    ensures n < |s| ==> !IsWhitespace(s[n])
  {
    WhitespaceRunEnd(s, 0)
  }

  /** Number of whitespace characters at the back of `s`. */
  function TrailingWhitespace(s: string): (n: nat)
    ensures n <= |s|
    ensures AllWhitespace(s[|s| - n..])
    ensures n < |s| ==> !IsWhitespace(s[|s| - n - 1])
  {
    |s| - WhitespaceRunStart(s, |s|)
  }

  /** `r` is `s` with its whitespace prefix and suffix cut off, and nothing else. */
  ghost predicate IsStripOf(s: string, r: string) {
    && (r == [] || (!IsWhitespace(r[0]) && !IsWhitespace(r[|r| - 1])))
    && exists i :: 0 <= i <= |s| - |r| && s[i..i + |r|] == r
                   && AllWhitespace(s[..i]) && AllWhitespace(s[i + |r|..])
  }

  /** Python's `s.strip()`. */
  function Strip(s: string): (r: string)
    ensures IsStripOf(s, r)
  {
    var i := LeadingWhitespace(s);
    var t := s[i..];
    var j := TrailingWhitespace(t);
    var r := t[..|t| - j];
    assert s[i..i + |r|] == r;
    assert s[i + |r|..] == t[|t| - j..];
    assert r != [] ==> r[0] == s[i] && r[|r| - 1] == t[|t| - j - 1];
    assert AllWhitespace(s[..i]) && AllWhitespace(s[i + |r|..]);
    assert 0 <= i <= |s| - |r| && s[i..i + |r|] == r;
    r
  }

  /** A string that neither starts nor ends with whitespace is left alone. */
  lemma StripKeepsTrimmed(s: string)
    requires s == [] || (!IsWhitespace(s[0]) && !IsWhitespace(s[|s| - 1]))
    ensures Strip(s) == s
  {
    var r := Strip(s);
    var i :| 0 <= i <= |s| - |r| && s[i..i + |r|] == r
             && AllWhitespace(s[..i]) && AllWhitespace(s[i + |r|..]);
  }

  // ---------------------------------------------------------------------------
  // Decimal rendering of natural numbers, as Python's `str(n)` does it

  function DigitChar(d: nat): (c: char)
    requires d < 10
    ensures '0' <= c <= '9'
    ensures (c as int) - ('0' as int) == d
  {
    (('0' as int) + d) as char
  }

  predicate AllDigits(s: string) {
    forall i :: 0 <= i < |s| ==> '0' <= s[i] <= '9'
  }

  /** Python's `str(n)` for a non-negative integer: no sign, no leading zero. */
  function Decimal(n: nat): (r: string)
    ensures |r| >= 1 && AllDigits(r)
    ensures |r| > 1 ==> r[0] != '0'
  {
    if n < 10 then [DigitChar(n)]
    else
      var h := Decimal(n / 10);
      assert h[0] != '0';
      h + [DigitChar(n % 10)]
  }

  /** The inverse of `Decimal`: the value of a string of decimal digits. */
  function ParseDecimal(s: string): nat
    requires AllDigits(s)
  {
    if |s| == 0 then 0
    else ParseDecimal(s[..|s| - 1]) * 10 + ((s[|s| - 1] as int) - ('0' as int))
  }

  lemma {:induction false} DecimalRoundTrip(n: nat)
    ensures ParseDecimal(Decimal(n)) == n
  {
    if n >= 10 {
      var r := Decimal(n);
      assert r[..|r| - 1] == Decimal(n / 10);
      DecimalRoundTrip(n / 10);
    }
  }

  /** Different numbers render differently. */
  lemma DecimalInjective(m: nat, n: nat)
    ensures Decimal(m) == Decimal(n) ==> m == n
  {
    DecimalRoundTrip(m);
    DecimalRoundTrip(n);
  }
}

=== FILE: urls.dfy ===
/** The part of URL handling the redirect view depends on: the scheme that
    Python's `urllib.parse.urlsplit` finds in a redirect target, and the
    schemes Django's `HttpResponseRedirect` accepts (anything else raises
    `DisallowedRedirect`, which Django answers with 400). */
module Urls {
  import opened Text
  import opened Models

  /** `HttpResponseRedirect.allowed_schemes`. */
  const AllowedSchemes: set<string> := {"http", "https", "ftp"}

  /** The characters `urllib.parse` accepts in a scheme. */
  predicate SchemeChar(c: char) {
    IsAsciiLetter(c) || ('0' <= c <= '9') || c == '+' || c == '-' || c == '.'
  }

  function LowerChar(c: char): (d: char)
    ensures d == c || ('A' <= c <= 'Z' && 'a' <= d <= 'z')
  {
    if 'A' <= c <= 'Z' then ((c as int) + 32) as char else c
  }

  /** ASCII lower-casing, which is what `str.lower()` does to scheme characters. */
  function Lower(s: string): (r: string)
    ensures |r| == |s|
    ensures forall i :: 0 <= i < |s| ==> r[i] == LowerChar(s[i])
  {
    seq(|s|, i requires 0 <= i < |s| => LowerChar(s[i]))
  }

  /** The position of the first ':' in `s`, or `|s|` when there is none. */
  function ColonIndex(s: string): (i: nat)
    ensures i <= |s|
    ensures i < |s| ==> s[i] == ':'
    ensures forall j :: 0 <= j < i ==> s[j] != ':'
  {
    if s == [] || s[0] == ':' then 0 else 1 + ColonIndex(s[1..])
  }

  /** The scheme `urlsplit` reports for `url`: the text before the first ':',
      lower-cased, when that text is non-empty, starts with an ASCII letter
      and holds only scheme characters; otherwise the empty string. Older
      Python versions skip the first-letter test and keep a digits-only
      remainder out of the scheme; neither matters for a target that starts
      with "http" and holds no digit. */
  function UrlScheme(url: string): (scheme: string)
    ensures scheme != [] ==>
      var i := ColonIndex(url);
      && i < |url| && |scheme| == i
      && (forall j :: 0 <= j < i ==> SchemeChar(url[j]) && scheme[j] == LowerChar(url[j]))
    ensures scheme != [] <==>
      var i := ColonIndex(url);
      0 < i < |url| && IsAsciiLetter(url[0]) && forall j :: 0 <= j < i ==> SchemeChar(url[j])
  {
    var i := ColonIndex(url);
    if 0 < i < |url| && IsAsciiLetter(url[0]) && forall j :: 0 <= j < i ==> SchemeChar(url[j])
    then Lower(url[..i])
    else []
  }

  /** Whether `HttpResponseRedirect(target)` raises `DisallowedRedirect`. */
  predicate DisallowedTarget(target: string) {
    UrlScheme(target) != [] && UrlScheme(target) !in AllowedSchemes
  }

  /** Which validated destinations starting with "http" Django refuses to
      redirect to: exactly those with a ':' whose text before the first ':'
      has no '/' and is neither "http" nor "https" in any case Python's
      `startswith("http")` lets through. */
  lemma DisallowedDestinationIff(d: string)
    requires ValidDestination(d) && StartsWith(d, "http")
    ensures var i := ColonIndex(d);
      DisallowedTarget(d) <==>
        && i < |d|
        && (forall j :: 0 <= j < i ==> d[j] != '/')
        && d[..i] != "http" && d[..i] != "https" && d[..i] != "httpS"
  {
    var i := ColonIndex(d);
    HttpColonIndex(d);
    SchemeCharsAreNoSlash(d, i);
    if i < |d| && forall j :: 0 <= j < i ==> SchemeChar(d[j]) {
      assert UrlScheme(d) == Lower(d[..i]) by { assert IsAsciiLetter(d[0]) by { assert d[0] == "http"[0]; } }
      assert d[..i][..4] == "http" by { assert d[..i][..4] == d[..4]; }
      LowerHttp(d[..i]);
    }
  }

  /** A target that starts with "http" has no ':' in its first four places. */
  lemma HttpColonIndex(d: string)
    requires StartsWith(d, "http")
    ensures 4 <= ColonIndex(d)
  {
    forall j | 0 <= j < 4 ensures d[j] != ':' { assert d[j] == d[..4][j] == "http"[j]; }
  }

  /** Before the first ':' of a validated destination, a scheme character is
      anything but '/'. */
  lemma SchemeCharsAreNoSlash(d: string, i: nat)
    requires AllAllowed(d) && i <= |d| && forall j :: 0 <= j < i ==> d[j] != ':'
    ensures (forall j :: 0 <= j < i ==> SchemeChar(d[j])) <==> (forall j :: 0 <= j < i ==> d[j] != '/')
  {
    forall j | 0 <= j < i ensures SchemeChar(d[j]) <==> d[j] != '/' {
      assert AllowedInUrl(d[j]);
    }
  }

  /** For a prefix that starts with "http", its lower-cased form is one of
      the allowed schemes exactly when it is "http", "https" or "httpS". */
  lemma LowerHttp(p: string)
    requires |p| >= 4 && p[..4] == "http"
    ensures Lower(p) in AllowedSchemes <==> p == "http" || p == "https" || p == "httpS"
  {
    var l := Lower(p);
    forall j | 0 <= j < 4 ensures l[j] == p[j] {
      assert p[j] == "http"[j];
    }
    assert l != "ftp";
    if |p| == 4 {
      assert l == p;
    } else if |p| == 5 {
      assert l == "https" <==> p[4] == 's' || p[4] == 'S' by {
        assert l == "https" <==> l[4] == 's';
      }
      assert p == "https" <==> p[4] == 's';
      assert p == "httpS" <==> p[4] == 'S';
    }
  }

  /** A target built as "http://" + destination always has scheme "http". */
  lemma PrefixedTargetAllowed(d: string)
    ensures UrlScheme("http://" + d) == "http"
    ensures !DisallowedTarget("http://" + d)
  {
    var t := "http://" + d;
    assert t[4] == ':';
    forall j | 0 <= j < 4 ensures t[j] != ':' && SchemeChar(t[j]) { assert t[j] == "http"[j]; }
    assert ColonIndex(t) == 4;
    assert t[..4] == "http";
    assert Lower("http") == "http";
  }
}
